=== FILE: README.md ===
# doc-code-library-builder: the ingestion core in Dafny

This project models the ingestion side of doc-code-library-builder, a tool
that turns a folder of study material into a searchable vector collection.
The modelled steps are:

1. `scan_files` walks the material root. It skips directories whose names
   contain an excluded keyword, and keeps the files whose lower-cased
   pathlib suffix is allowed.
2. `main` filters the scanned paths by extension once more. It reads the
   `source_path` of every entry already in the collection and keeps only the
   files not indexed yet, in scan order.
3. Each new file is dispatched by extension:
   - `.pdf` and `.txt` are documents, chunked 1200/200 and summarised with
     `qwen2:7b`;
   - `.py` and `.ipynb` are code, chunked 400/50 and summarised with
     `deepseek-r1:7b`.
4. The text comes from one of four readers (`read_pdf`, `read_txt`,
   `read_py`, `read_ipynb`). None of them raises; each yields "" on failure.
5. `chunk_text` cuts the text into overlapping windows.
6. For every chunk that is not blank, the run builds a text to store: the
   chunk's first 1500 characters in fast mode, a non-blank summary
   otherwise. It embeds that text and adds it under the id `doc_<n>`.

The pieces:

- `pystr.dfy` (PyStr) holds the Python string operations used: slicing,
  `strip`, ASCII `lower`, `join`, `in` and `str(n)`.
- `chunker.dfy` (Chunker) is `chunk_text`.
- `extractors.dfy` (Extractors) holds the four readers. Their inputs are
  what file reading, PDF parsing and JSON parsing produced.
- `discovery.dfy` (Discovery) is `scan_files` over an abstract directory
  tree, plus the extension filter.
- `incremental.dfy` (Incremental) covers the existing-path collection and
  the `new_files` diff.
- `ingest.dfy` (Ingest) is the file and chunk loops of `main`, as a fold
  over a run state. The summariser, the embedding function and
  `collection.add` are parameters that may fail.

Behaviour of the code that the model keeps:

- `chunk_text` returns `[]` for the empty text, whatever the overlap. For
  a non-empty text it has no guard on its step: when `overlap >= chunk_size`
  it never ends. So `Chunker.ChunkText`, `Chunker.ChunkShape` and
  `Chunker.ChunkTextLoop` require `|text| == 0 || overlap < size`, and the
  members about a non-empty text require `overlap < size`.
- `main` does not catch a summariser exception. Such an exception ends the
  run, and the entries added before it stay added (`Ingest.StoreChunkEnds`,
  `Ingest.CrashedRunStops`).
- An exception while collecting existing paths keeps the paths gathered
  before it, and nothing after it. The handler does not reset the set
  (`Incremental.CollectKeepsPrefix`, `Incremental.CollectStopsAtRaise`).
- In fast mode the truncated text `chunk[:1500]` is not checked for
  blankness again. Only the whole chunk is tested.
- The id counter starts at 0 on every run. `Ingest.ReliableFastRun` shows
  that, with services that never fail, the i-th entry of any run gets
  `doc_i`, whatever the collection already holds. What the collection does
  with an id it already has is outside the model.

## Model

| member | source | states |
|---|---|---|
| PyStr.SliceBounds | parsers.py:62 | `s[a:b]` is never longer than `s`; in-range bounds select exactly `s[a..b]`; an end bound past the length stops at the end; a negative start counts from the end; an empty range gives "" |
| PyStr.TakeIsPrefix | ingest.py:143 | `s[:k]` is the prefix of length `min(k, len(s))`, at most `k` long, and non-empty for a non-empty `s` and positive `k` |
| PyStr.StripLeading | ingest.py:112 | the result is a suffix of the input; every dropped character is whitespace; the result does not start with whitespace |
| PyStr.StripTrailing | ingest.py:112 | the result is a prefix of the input; every dropped character is whitespace; the result does not end with whitespace |
| PyStr.StripEmptyIffBlank | ingest.py:138-139 | `not s.strip()` holds exactly when every character of `s` is whitespace (the empty string included) |
| PyStr.Lower | ingest.py:38 | lower-casing keeps the length and maps each character on its own |
| PyStr.JoinSnoc | parsers.py:15 | joining one more part appends the separator and that part, so parts are joined in order |
| PyStr.JoinLength | parsers.py:15 | the joined string is as long as the parts plus one separator between each pair of neighbours |
| PyStr.Decimal | ingest.py:155 | `str(n)` is a non-empty run of digits, one digit exactly when `n < 10` |
| PyStr.DecimalValue | ingest.py:155 | `str(n)` read back most significant digit first denotes `n`, and starts with "0" only for 0 |
| PyStr.DecimalInjective | ingest.py:155 | equal numerals come from equal numbers |
| Chunker.ChunkShape | parsers.py:54-64 | the empty text has no chunks; chunk i is `text[start_i:start_i+size]` with `start_i` reached after i steps of `size - overlap`; every chunk starts inside the text; one more step would start at or past its end |
| Chunker.ChunkTextLoop | parsers.py:55-64 | the `while` loop, statement by statement, returns exactly the chunks the functional definition gives |
| Chunker.StartAt | parsers.py:60-63 | the i-th value of `start` inside the loop is i steps past the first one and below the text length |
| Chunker.StartsCount | parsers.py:60 | the loop stops once `start` has reached the text length |
| Chunker.ChunkStartIsProduct | parsers.py:61-63 | after i steps `start` is `i * (size - overlap)` |
| Chunker.ChunkStartMonotone | parsers.py:63 | with `overlap < size` the start strictly grows, which is what makes the loop end |
| Chunker.ChunkWindow | parsers.py:61-62 | chunk i is the window from its start up to `min(start + size, len(text))`, with the start inside the text |
| Chunker.ChunkLengths | parsers.py:60-62 | every chunk is non-empty and at most `size` long |
| Chunker.ChunkCount | parsers.py:58-63 | there are `ceil(len(text) / (size - overlap))` chunks |
| Chunker.ChunkLastEnds | parsers.py:60-62 | a non-empty text has a last chunk, and that chunk ends exactly at the end of the text |
| Chunker.ChunkCovers | parsers.py:58-63 | every character of the text lies in some chunk |
| Chunker.ChunkOverlap | parsers.py:61-63 | neighbouring chunks share a region of `overlap` characters (less only where the text ends): it is both a suffix of chunk i and a prefix of chunk i+1 |
| Chunker.ChunkExample | parsers.py:54-64 | 25 characters with size 10 and overlap 2 give the windows [0,10), [8,18), [16,25) and [24,25) |
| Extractors.PageStrings | parsers.py:12-14 | the page loop finishes exactly when no page raises; it then holds one string per page, in order: the page's text, or "" for a page without text |
| Extractors.ReadPdf | parsers.py:8-21 | an unreadable PDF, or one with a page whose extraction raises, yields "" |
| Extractors.ReadPdfContents | parsers.py:12-15 | when no page raises, the result is the "\n"-join, in page order, of each page's text, "" for a page without text |
| Extractors.ReadPdfPages | parsers.py:12-15 | one more page appends "\n" and that page's text; the result is as long as the page texts plus one newline between neighbours |
| Extractors.KeptCells | parsers.py:46-47 | the kept cells are exactly the code and markdown cells, and no more than the notebook has |
| Extractors.KeptCellsAppend | parsers.py:46-48 | the kept cells of a concatenation are those of each part in turn, so notebook order is kept |
| Extractors.CellTexts | parsers.py:45-48 | the cell loop fails exactly when some cell raises; otherwise it holds the joined source of each kept cell, in order |
| Extractors.ReadIpynb | parsers.py:40-52 | an unreadable or non-JSON file, a document that is not an object, a missing or non-list `cells`, or a raising cell yields "" |
| Extractors.ReadIpynbContents | parsers.py:45-49 | when no cell raises, the result is the "\n\n"-join of the joined sources of exactly the code and markdown cells |
| Extractors.CellTextsSkipsOtherCells | parsers.py:47 | a cell of another type changes nothing, wherever it stands |
| Extractors.SourceLinesSnoc | parsers.py:48 | a list source is joined end to end with no separator |
| Discovery.LastDot | ingest.py:38 | the index found holds a dot with no dot after it; None means the name has no dot |
| Discovery.Suffix | ingest.py:38 | a suffix starts with the last dot and is a proper end of the name with no other dot; it is "" exactly when there is no dot, or the last dot is the first or the last character |
| Discovery.ExtLowersCase | ingest.py:38 | "notes.PDF" has the extension ".pdf" |
| Discovery.ExtLastSuffixOnly | ingest.py:38 | "archive.tar.gz" has the extension ".gz" |
| Discovery.ExtNoProperSuffix | ingest.py:38 | ".bashrc", "notes." and "README" have no extension |
| Discovery.KeptFilesMember | ingest.py:37-40 | a directory contributes exactly its own files whose names pass the test, as the directory path plus the name |
| Discovery.WalkSubdirsMember | ingest.py:34-36 | the walk below a directory's sub-directories is exactly the union of the walks of those that are not pruned |
| Discovery.ReachesAvoidsPruned | ingest.py:36 | no directory on a reached path is pruned |
| Discovery.WalkSound | ingest.py:31-41 | every returned path lies below the root, is reached through directories that are not pruned, and passes the extension test |
| Discovery.WalkComplete | ingest.py:31-41 | every file reached through directories that are not pruned and passing the extension test is returned |
| Discovery.ScanFilesExact | ingest.py:31-41 | `scan_files` returns exactly the allowed files reachable without entering a directory whose name contains an excluded keyword |
| Discovery.FilterAllowed | ingest.py:64 | the filtered list holds exactly the paths whose final component has an allowed extension, and is no longer than its input |
| Discovery.ScanAlreadyFiltered | ingest.py:63-64 | filtering the scanned paths again changes nothing, order included |
| Incremental.CollectSubs | ingest.py:82-85 | the inner loop raises exactly when some element raises; it collects only declared paths, and all of them when it does not raise |
| Incremental.CollectItems | ingest.py:77-85 | the outer loop raises exactly when some item raises; it collects only declared paths, and all of them when it does not raise |
| Incremental.ExistingPaths | ingest.py:72-87 | a failed fetch leaves the set empty; otherwise only declared paths are collected, and all of them when no item raises |
| Incremental.CollectKeepsPrefix | ingest.py:77-87 | a path declared before the first raising item is kept, whatever follows |
| Incremental.CollectSubsUpTo | ingest.py:82-85 | the inner loop collects exactly the paths declared before its first raising element |
| Incremental.CollectItemsUpTo | ingest.py:77-87 | when item k is the first to raise, the outer loop collects exactly the paths of the items before k and what the inner loop of item k collected |
| Incremental.CollectStopsAtRaise | ingest.py:72-87 | when element m of item k is the first to raise, the existing paths are exactly those declared before it, and none declared after it |
| Incremental.FlatItemsCollected | ingest.py:79-81 | for the flat layout the set is exactly the paths of the dicts |
| Incremental.NewFiles | ingest.py:92 | a file is new exactly when it was scanned and is not indexed; the diff is no longer than its input |
| Incremental.NewFilesAppend | ingest.py:92 | the diff of a concatenation is the concatenation of the diffs, so scan order is kept |
| Incremental.NewFilesNoneIndexed | ingest.py:92 | with nothing indexed, every file is new, in the same order |
| Incremental.NewFilesAllIndexed | ingest.py:92 | with every file indexed, nothing is new |
| Ingest.StandardConfig | config.py:30-38 | the configured chunk sizes and overlaps let `chunk_text` step forward, and the overlaps are not negative |
| Ingest.Dispatch | ingest.py:103-135 | a file is processed exactly when its extension is a document or code extension; it is a document exactly when the extension is a document extension |
| Ingest.DispatchStandard | ingest.py:106-135 | with the configured lists, `.pdf`, `.txt`, `.py` and `.ipynb` each get their own reader, and every other extension is skipped |
| Ingest.ChunkPayload | ingest.py:137-147 | a blank chunk is skipped; only the summariser path can end the run; a text chosen for storing is `chunk[:1500]` of a non-blank chunk in fast mode, and a non-blank summary otherwise |
| Ingest.DecideAdds | ingest.py:155-167 | an added entry carries the file's path and type as its only metadata, and a text that may be stored for the chunk |
| Ingest.StoreChunkSkips | ingest.py:138-147 | a blank chunk is skipped before any service is called; a skipped chunk (blank, or with a blank summary) leaves the run as it was, so it uses no id |
| Ingest.PayloadCases | ingest.py:141-147 | for a chunk that is not blank: fast mode stores `chunk[:1500]`; otherwise a summariser exception ends the run, a blank summary skips the chunk, and any other summary is stored as returned |
| Ingest.StoreChunkEnds | ingest.py:144-147 | a summariser exception (outside fast mode, for a chunk that is not blank) ends the run and adds nothing; fast mode never ends the run |
| Ingest.StoreChunkIds | ingest.py:149-170 | a failed embedding skips the chunk without using an id; otherwise `doc_<counter>` is used, and the entries stay unchanged exactly when the add fails |
| Ingest.ChunkLoopGrows | ingest.py:137-170 | the chunk loop keeps earlier entries, uses at most one id per chunk, and numbers the entries it adds in increasing order from the old counter; each carries this file's metadata and came from one of its chunks; an ended run stays as it is |
| Ingest.FailedReadStoresNothing | ingest.py:106-127 | a routed file whose reader fails (an unreadable PDF or a raising page, a text or Python file that cannot be read, a notebook that cannot be parsed or has no cell list or a raising cell) yields "" and leaves the run unchanged |
| Ingest.FileStepGrows | ingest.py:102-135 | an unrouted file, or one whose text is blank, changes nothing; a processed file only adds entries that fit it, and the numbering is kept |
| Ingest.FileLoopGrows | ingest.py:102-170 | the file loop keeps earlier entries; every entry it adds fits its file and came from the list; the numbering is kept |
| Ingest.PendingMember | ingest.py:64-92 | a file the loop visits was scanned and is not indexed |
| Ingest.RunIngestSound | ingest.py:58-170 | no entry is stored for an indexed path or an unscanned path; every entry fits its file; entry numbers strictly increase |
| Ingest.EntryCategory | ingest.py:106-131 | an entry of a document file is tagged "doc" and came from a chunk cut with the document size and overlap; any other entry is of a code file, tagged "code", and came from a chunk cut with the code size and overlap |
| Ingest.IdsUnique | ingest.py:155-156 | ids within one run are pairwise distinct |
| Ingest.FastModeTexts | ingest.py:141-143 | in fast mode every stored text is a prefix, at most 1500 characters long, of a non-blank chunk of its file |
| Ingest.CrashedRunStops | ingest.py:145 | once a summariser exception has ended the run, no later file changes anything |
| Ingest.FetchFailureReingestsAll | ingest.py:86-92 | when the metadata cannot be fetched, every scanned file is processed, in scan order |
| Ingest.SecondRunSkipsStoredFiles | ingest.py:71-92 | when no item of the earlier reply raises, a second run over the collection the first one left stores nothing for a file the first run stored something for, whatever the services answer |
| Ingest.StoredPathIndexed | ingest.py:79-81 | when no item of the earlier reply raises, the path of every entry added by a run is collected by the next fetch |
| Ingest.EarlierPathsStayIndexed | ingest.py:77-85 | when no item of the earlier reply raises, paths collected before a run are still collected after its entries are added |
| Ingest.SecondRunIdempotent | ingest.py:91-92 | when no item of the earlier reply raises and the first run stored something for every pending file, the second run has no pending file and stores nothing |
| Ingest.SecondRunAddsNothing | ingest.py:71-127 | when no item of the earlier reply raises and every file the first run had to process got an entry, is unrouted, or has a blank (empty or unreadable) text, the second run adds nothing, whatever the services answer |
| Ingest.ReliableChunks | ingest.py:137-170 | in fast mode with services that never fail, the chunk loop stores `chunk[:1500]` of each non-blank chunk, in order, under consecutive ids |
| Ingest.ReliableFile | ingest.py:102-135 | the same for one file; an unrouted or blank file stores nothing |
| Ingest.ReliableFiles | ingest.py:102-170 | the same for a list of files, in list order |
| Ingest.ReliableFastRun | ingest.py:99-170 | in fast mode with services that never fail, the run stores exactly the planned texts of the pending files, in scan and chunk order, the i-th under `doc_i` |

## Left out

- Opening files, UTF-8 decoding with invalid bytes dropped, PyPDF2 page parsing and `json.load` are outside the model. Each reader receives what those steps produced, or that they failed.
- A notebook `source` holding a dict is modelled as a value `"".join` rejects. In Python, `"".join` of a dict joins its keys.
- The order in which `os.walk` lists files and sub-directories is fixed by the tree given. Symbolic links are not represented; `os.walk` does not follow them by default.
- A directory `os.walk` cannot list yields nothing and the walk goes on, which is the default without `onerror`.
- Paths are lists of components, and `os.path.join` is not modelled. Two different strings naming the same file are not identified.
- PyStr.Lower lowers ASCII letters only, where `str.lower()` lowers all of Unicode. Extensions are compared after lowering, so this only matters for non-ASCII suffixes.
- The prompt text of `summarise_chunk` and the HTTP call of `call_local_llm` are outside the model. The summariser is a function from the position, the model and the chunk to a reply or a failure. The reply is taken as returned; the client's `.strip()` of the reply is not modelled.
- The chromadb client, the collection's creation and the SentenceTransformer embedding are outside the model. Embedding and adding are functions that may fail, and embedding vectors carry no meaning here.
- The services are deterministic functions of the file and chunk index they are called for. Behaviour that depends on anything else, such as time or earlier calls, is not represented.
- Printing, the `tqdm` progress bar and the log messages are not modelled.
- app.py (the query interface) and llm_client.py are not part of this model.
- config.py's `.env` loading, `os.getenv` for the root, the output directory creation and the collection path are not modelled. `ALLOWED_EXTENSIONS`, `EXCLUDE_DIR_KEYWORDS` and `FAST_MODE` are imported by ingest.py but not defined in config.py, so they are parameters.
- Exceptions other than those named in the model, such as an interrupt or an exception raised by `tqdm`, are not modelled.
- Chunker.ChunkShape: requires `|text| == 0 || overlap < size`. For a non-empty text with `overlap >= size` the source loops forever, so there is no result to describe.
- Ingest.SecondRunSkipsStoredFiles: assumes that every add that did not raise in the first run appended its metadata to the collection's reply. Ids restart at `doc_0` on every run, so for a collection that already held entries an add may reuse an id the collection has; what the collection then does is not modelled. For a first run on an empty collection (`items == []`) the ids are fresh (`Ingest.IdsUnique`).
- Ingest.StoredPathIndexed: the same append assumption; it describes the reply as the earlier items followed by one dict per entry of the run.
- Ingest.SecondRunIdempotent: the same append assumption, for the same reason.
- Ingest.SecondRunAddsNothing: the same append assumption, for the same reason.
- Chunker.ChunkLengths: requires `0 <= overlap`, and so do the other window lemmas. A negative overlap leaves gaps between windows. The configured overlaps are 200 and 50.

=== FILE: chunker.dfy ===
/**
 The sliding-window splitter `chunk_text(text, chunk_size, overlap)`.

 The loop starts at 0, appends `text[start:start+chunk_size]` and moves
 `start` to `start + chunk_size - overlap` until `start` reaches the end of
 the text. The empty text returns before the loop, whatever the overlap.
 Nothing guards the step: when `overlap >= chunk_size` and the text is
 non-empty the loop never ends, so the members about a non-empty text
 require `overlap < chunk_size`, which is exactly what makes the step
 positive.
 */
module Chunker {
  import opened PyStr

  /** Where window i begins: i steps of `size - overlap` from 0 (see
      `ChunkStartIsProduct` for the closed form `i * (size - overlap)`). */
  function ChunkStart(i: nat, size: int, overlap: int): int
  {
    if i == 0 then 0 else ChunkStart(i - 1, size, overlap) + (size - overlap)
  }

  lemma {:induction false} ChunkStartIsProduct(i: nat, size: int, overlap: int)
    ensures ChunkStart(i, size, overlap) == i * (size - overlap)
  {
    if i > 0 {
      ChunkStartIsProduct(i - 1, size, overlap);
      assert i * (size - overlap) == (i - 1) * (size - overlap) + (size - overlap);
    }
  }

  /** Window starts grow strictly with i when the step is positive. */
  lemma {:induction false} ChunkStartMonotone(i: nat, j: nat, size: int, overlap: int)
    requires overlap < size && i < j
    ensures ChunkStart(i, size, overlap) < ChunkStart(j, size, overlap)
    decreases j
  {
    if i < j - 1 {
      ChunkStartMonotone(i, j - 1, size, overlap);
    }
  }

  /** The values `start` takes in the loop from a given one on, while it
      is below the text length `n`: `start`, then the starts from one step
      later. */
  function Starts(n: nat, start: nat, size: int, overlap: int): seq<nat>
    requires overlap < size
    decreases n - start
  {
    if start < n then [start] + Starts(n, start + (size - overlap), size, overlap) else []
  }

  /** The i-th start from `start` is `start + ChunkStart(i)`, below `n`. */
  lemma {:induction false} StartAt(n: nat, start: nat, size: int, overlap: int, i: nat)
    requires overlap < size
    requires i < |Starts(n, start, size, overlap)|
    ensures Starts(n, start, size, overlap)[i] == start + ChunkStart(i, size, overlap) < n
    decreases i
  {
    var next := start + (size - overlap);
    assert Starts(n, start, size, overlap) == [start] + Starts(n, next, size, overlap);
    if i > 0 {
      StartAt(n, next, size, overlap, i - 1);
    }
  }

  /** One more step after the last start reaches `n`. */
  lemma {:induction false} StartsCount(n: nat, start: nat, size: int, overlap: int)
    requires overlap < size
    ensures start + ChunkStart(|Starts(n, start, size, overlap)|, size, overlap) >= n
    decreases n - start
  {
    if start < n {
      StartsCount(n, start + (size - overlap), size, overlap);
    }
  }

  /** `text[s:s+size]` for each start s, in order. */
  function Cut(text: string, starts: seq<nat>, size: int): seq<string>
  {
    seq(|starts|, k requires 0 <= k < |starts| => Slice(text, starts[k], starts[k] + size))
  }

  /** `chunk_text(text, size, overlap)`: no chunks for the empty text, and
      otherwise the windows at the starts the loop visits from 0. */
  function ChunkText(text: string, size: int, overlap: int): seq<string>
    requires |text| == 0 || overlap < size
  {
    if |text| == 0 then [] else Cut(text, Starts(|text|, 0, size, overlap), size)
  }

  /** Chunk i is the Python slice of `size` starting at `ChunkStart(i)`,
      every chunk starts before the end of the text, and one more step
      would start at or past the end; the empty text has no chunks. */
  lemma ChunkShape(text: string, size: int, overlap: int)
    requires |text| == 0 || overlap < size
    ensures var chunks := ChunkText(text, size, overlap);
      && (|text| == 0 ==> chunks == [])
      && ChunkStart(|chunks|, size, overlap) >= |text|
      && forall i | 0 <= i < |chunks| ::
           && ChunkStart(i, size, overlap) < |text|
           && chunks[i] == Slice(text, ChunkStart(i, size, overlap), ChunkStart(i, size, overlap) + size)
  {
    var chunks := ChunkText(text, size, overlap);
    if |text| > 0 {
      var starts := Starts(|text|, 0, size, overlap);
      StartsCount(|text|, 0, size, overlap);
      forall i | 0 <= i < |chunks|
        ensures ChunkStart(i, size, overlap) < |text|
        ensures chunks[i] == Slice(text, ChunkStart(i, size, overlap), ChunkStart(i, size, overlap) + size)
      {
        StartAt(|text|, 0, size, overlap, i);
        assert chunks[i] == Slice(text, starts[i], starts[i] + size);
      }
    }
  }

  /** Cutting one more start adds its window at the end. */
  lemma CutSnoc(text: string, starts: seq<nat>, s: nat, size: int)
    ensures Cut(text, starts + [s], size) == Cut(text, starts, size) + [Slice(text, s, s + size)]
  {
    var a := Cut(text, starts + [s], size);
    var b := Cut(text, starts, size) + [Slice(text, s, s + size)];
    forall k | 0 <= k < |a|
      ensures a[k] == b[k]
    {
      assert (starts + [s])[k] == if k < |starts| then starts[k] else s;
    }
  }

  /** The `while` loop of `chunk_text`, statement by statement. */
  method ChunkTextLoop(text: string, chunkSize: int, overlap: int) returns (chunks: seq<string>)
    requires |text| == 0 || overlap < chunkSize
    ensures chunks == ChunkText(text, chunkSize, overlap)
  {
    chunks := [];
    if |text| == 0 {
      return;
    }
    var start: nat := 0;
    ghost var visited: seq<nat> := [];
    while start < |text|
      invariant visited + Starts(|text|, start, chunkSize, overlap) == Starts(|text|, 0, chunkSize, overlap)
      invariant chunks == Cut(text, visited, chunkSize)
      decreases |text| - start
    {
      var end := start + chunkSize;
      var rest := Starts(|text|, end - overlap, chunkSize, overlap);
      assert Starts(|text|, start, chunkSize, overlap) == [start] + rest;
      assert visited + [start] + rest == visited + ([start] + rest);
      CutSnoc(text, visited, start, chunkSize);
      chunks := chunks + [Slice(text, start, end)];
      visited := visited + [start];
      start := end - overlap;
    }
    assert visited == Starts(|text|, 0, chunkSize, overlap);
  }

  // -----------------------------------------------------------------------
  // Window properties, for 0 <= overlap < size
  // -----------------------------------------------------------------------

  /** Chunk i is the plain window `text[start_i .. min(start_i + size, len)]`
      with `start_i == ChunkStart(i)`, which lies inside the text. */
  lemma ChunkWindow(text: string, size: int, overlap: int, i: nat)
    requires 0 <= overlap < size
    requires i < |ChunkText(text, size, overlap)|
    ensures 0 <= ChunkStart(i, size, overlap) < |text|
    ensures ChunkText(text, size, overlap)[i]
         == text[ChunkStart(i, size, overlap)..Min(ChunkStart(i, size, overlap) + size, |text|)]
  {
    ChunkShape(text, size, overlap);
    if i > 0 {
      ChunkStartMonotone(0, i, size, overlap);
    }
    var start := ChunkStart(i, size, overlap);
    SliceWindow(text, start, start + size);
  }

  /** Every chunk is non-empty and at most `size` long. */
  lemma ChunkLengths(text: string, size: int, overlap: int)
    requires 0 <= overlap < size
    ensures forall c | c in ChunkText(text, size, overlap) :: 0 < |c| <= size
  {
    var chunks := ChunkText(text, size, overlap);
    forall c | c in chunks
      ensures 0 < |c| <= size
    {
      var i :| 0 <= i < |chunks| && chunks[i] == c;
      ChunkWindow(text, size, overlap, i);
    }
  }

  /** A multiple of a positive step strictly between -step and step is 0. */
  lemma MulBoundedIsZero(k: int, step: int)
    requires step > 0 && -step < k * step < step
    ensures k == 0
  {
  }

  /** The unique n with `n * step` in `[m, m + step)` is `(m + step - 1) / step`. */
  lemma CeilDivUnique(m: nat, step: int, n: nat)
    requires step > 0
    requires m <= n * step <= m + step - 1
    ensures n == (m + step - 1) / step
  {
    var a := m + step - 1;
    var q := a / step;
    var rem := a % step;
    assert a == q * step + rem && 0 <= rem < step;
    assert (q - n) * step == a - rem - n * step;
    MulBoundedIsZero(q - n, step);
  }

  /** The number of chunks is `ceil(len / (size - overlap))`. */
  lemma ChunkCount(text: string, size: int, overlap: int)
    requires 0 <= overlap < size
    ensures |ChunkText(text, size, overlap)| == (|text| + (size - overlap) - 1) / (size - overlap)
  {
    ChunkShape(text, size, overlap);
    var chunks := ChunkText(text, size, overlap);
    var n := |chunks|;
    ChunkStartIsProduct(n, size, overlap);
    if n > 0 {
      assert ChunkStart(n - 1, size, overlap) < |text|;
    }
    CeilDivUnique(|text|, size - overlap, n);
  }

  /** The last chunk ends exactly at the end of the text. */
  lemma ChunkLastEnds(text: string, size: int, overlap: int)
    requires 0 <= overlap < size
    requires |text| > 0
    ensures var chunks := ChunkText(text, size, overlap);
      && |chunks| > 0
      && ChunkStart(|chunks| - 1, size, overlap) + |chunks[|chunks| - 1]| == |text|
  {
    ChunkShape(text, size, overlap);
    var chunks := ChunkText(text, size, overlap);
    var n := |chunks|;
    assert n > 0;
    ChunkWindow(text, size, overlap, n - 1);
  }

  /** Character j lies inside the window that starts at `start` and is
      `len` long. */
  predicate InWindow(start: int, len: nat, j: int)
  {
    start <= j < start + len
  }

  /** Character j lies inside chunk i. */
  predicate InChunk(chunks: seq<string>, size: int, overlap: int, i: nat, j: int)
  {
    i < |chunks| && InWindow(ChunkStart(i, size, overlap), |chunks[i]|, j)
  }

  /** Every character index of the text lies inside some chunk. */
  lemma ChunkCovers(text: string, size: int, overlap: int, j: nat)
    requires 0 <= overlap < size
    requires j < |text|
    ensures exists i: nat :: InChunk(ChunkText(text, size, overlap), size, overlap, i, j)
  {
    CoverFrom(text, size, overlap, 0, j);
  }

  /** A character at or after the start of window i lies in window i or a
      later one. */
  lemma {:induction false} CoverFrom(text: string, size: int, overlap: int, i: nat, j: nat)
    requires 0 <= overlap < size
    requires ChunkStart(i, size, overlap) <= j < |text|
    ensures exists k: nat :: InChunk(ChunkText(text, size, overlap), size, overlap, k, j)
    decreases j - ChunkStart(i, size, overlap)
  {
    if j < ChunkStart(i, size, overlap) + (size - overlap) {
      ChunkShape(text, size, overlap);
      var chunks := ChunkText(text, size, overlap);
      assert i < |chunks| by {
        if i > |chunks| {
          ChunkStartMonotone(|chunks|, i, size, overlap);
        }
      }
      ChunkWindow(text, size, overlap, i);
      assert InChunk(chunks, size, overlap, i, j);
    } else {
      CoverFrom(text, size, overlap, i + 1, j);
    }
  }

  /** Neighbouring chunks share their overlap region: the text between the
      start of chunk i+1 and the end of chunk i is a suffix of chunk i and a
      prefix of chunk i+1, and it is `overlap` long unless the text ends
      first. */
  lemma ChunkOverlap(text: string, size: int, overlap: int, i: nat)
    requires 0 <= overlap < size
    requires i + 1 < |ChunkText(text, size, overlap)|
    ensures var chunks := ChunkText(text, size, overlap);
      var s0 := ChunkStart(i, size, overlap);
      var s1 := ChunkStart(i + 1, size, overlap);
      && 0 <= s1 <= Min(s0 + size, |text|)
      && var region := text[s1..Min(s0 + size, |text|)];
      && |region| == Min(overlap, |text| - s1)
      && |region| <= |chunks[i]|
      && chunks[i][|chunks[i]| - |region|..] == region
      && |region| <= |chunks[i + 1]|
      && chunks[i + 1][..|region|] == region
  {
    var chunks := ChunkText(text, size, overlap);
    var s0 := ChunkStart(i, size, overlap);
    var s1 := ChunkStart(i + 1, size, overlap);
    ChunkWindow(text, size, overlap, i);
    ChunkWindow(text, size, overlap, i + 1);
    var e0 := Min(s0 + size, |text|);
    var e1 := Min(s1 + size, |text|);
    assert text[s1..e0] == chunks[i][s1 - s0..];
    assert text[s1..e0] == chunks[i + 1][..e0 - s1];
  }

  /** A concrete case: 25 characters, size 10, overlap 2 give windows at
      0, 8, 16 and 24, the last one a single character. */
  lemma ChunkExample(text: string)
    requires |text| == 25
    ensures var chunks := ChunkText(text, 10, 2);
      && |chunks| == 4
      && chunks[0] == text[0..10]
      && chunks[1] == text[8..18]
      && chunks[2] == text[16..25]
      && chunks[3] == text[24..25]
  {
    ChunkCount(text, 10, 2);
    ChunkShape(text, 10, 2);
    var chunks := ChunkText(text, 10, 2);
    assert ChunkStart(1, 10, 2) == 8;
    assert ChunkStart(2, 10, 2) == 16;
    assert ChunkStart(3, 10, 2) == 24;
  }
}

=== FILE: discovery.dfy ===
/**
 File discovery: `scan_files(root)` and the extension test of the
 ingestion run. The filesystem is an abstract tree whose directories list
 their files and sub-directories in a fixed order (the order `os.walk`
 happens to report). A path is the list of its components, the root path
 first; joining them into one string is not modelled.
 */
module Discovery {
  import opened Wrappers
  import opened PyStr

  /** A path as its list of components. */
  type Path = seq<string>

  /** The final component (`Path(p).name`); "" for the empty path. */
  function FileName(p: Path): string
  {
    if |p| == 0 then "" else p[|p| - 1]
  }

  // -----------------------------------------------------------------------
  // Path(fn).suffix.lower()
  // -----------------------------------------------------------------------

  /** `name.rfind('.')`: the index of the last dot, if any. */
  function LastDot(name: string): (r: Option<nat>)
    ensures r.Some? ==> r.value < |name| && name[r.value] == '.'
    ensures r.Some? ==> forall j | r.value < j < |name| :: name[j] != '.'
    ensures r.None? ==> forall j | 0 <= j < |name| :: name[j] != '.'
  {
    if |name| == 0 then None
    else if name[|name| - 1] == '.' then Some(|name| - 1)
    else LastDot(name[..|name| - 1])
  }

  /** The last dot is the one with no dot after it. */
  lemma LastDotAt(name: string, i: nat)
    requires i < |name| && name[i] == '.'
    requires forall j | i < j < |name| :: name[j] != '.'
    ensures LastDot(name) == Some(i)
  {
  }

  /** pathlib's `suffix`: the name from its last dot on, or "" when there is
      no dot or the last dot is the first or the last character. */
  function Suffix(name: string): (r: string)
    ensures r != "" ==> 2 <= |r| < |name| && r[0] == '.' && r == name[|name| - |r|..]
    ensures r != "" ==> forall j | 1 <= j < |r| :: r[j] != '.'
    ensures r == "" <==>
      (LastDot(name).None? || LastDot(name).value == 0 || LastDot(name).value == |name| - 1)
  {
    match LastDot(name)
    case None => ""
    case Some(i) => if 0 < i < |name| - 1 then name[i..] else ""
  }

  /** `Path(name).suffix.lower()`. */
  function Ext(name: string): string
  {
    Lower(Suffix(name))
  }

  /** The extension test of `scan_files` and of `filtered_files`. */
  predicate AllowedName(name: string, allowed: set<string>)
  {
    Ext(name) in allowed
  }

  /** Upper-case suffixes are lowered, so "notes.PDF" passes a ".pdf" test. */
  lemma ExtLowersCase()
    ensures Ext("notes.PDF") == ".pdf"
  {
    LastDotAt("notes.PDF", 5);
    assert Suffix("notes.PDF") == ".PDF";
    assert Lower(".PDF") == ".pdf";
  }

  /** Only the last suffix counts. */
  lemma ExtLastSuffixOnly()
    ensures Ext("archive.tar.gz") == ".gz"
  {
    LastDotAt("archive.tar.gz", 11);
    assert Suffix("archive.tar.gz") == ".gz";
  }

  /** A hidden file's leading dot, a trailing dot and a name without a dot
      all give the empty extension. */
  lemma ExtNoProperSuffix()
    ensures Ext(".bashrc") == ""
    ensures Ext("notes.") == ""
    ensures Ext("README") == ""
  {
    LastDotAt(".bashrc", 0);
    LastDotAt("notes.", 5);
    assert LastDot("README") == None;
  }

  // -----------------------------------------------------------------------
  // The directory tree and os.walk with pruning
  // -----------------------------------------------------------------------

  /** A directory with its file names and sub-directories in listing order,
      or a directory that cannot be listed (os.walk then reports nothing
      for it and carries on). */
  datatype Tree = Dir(name: string, files: seq<string>, subdirs: seq<Tree>) | Unlistable(name: string)

  /** `any(x in d for x in EXCLUDE_DIR_KEYWORDS)`: the directory name
      contains some keyword as a substring. */
  predicate Excluded(dirName: string, keywords: seq<string>)
  {
    exists k | 0 <= k < |keywords| :: Contains(dirName, keywords[k])
  }

  /** The files of one directory that `keep` accepts, in listing order, as
      paths. */
  function KeptFiles(files: seq<string>, dirPath: Path, keep: string -> bool): seq<Path>
  {
    if |files| == 0 then []
    else
      var here := if keep(files[0]) then [dirPath + [files[0]]] else [];
      here + KeptFiles(files[1..], dirPath, keep)
  }

  /** The paths the walk below directory `t`, which sits at `dirPath`,
      appends: its own kept files first, then the walk of each sub-directory
      that `prune` does not reject, in listing order (os.walk is top-down
      and the pruned list is what it descends into). */
  function Walk(t: Tree, dirPath: Path, prune: string -> bool, keep: string -> bool): seq<Path>
    decreases t
  {
    match t
    case Unlistable(_) => []
    case Dir(_, files, subdirs) =>
      KeptFiles(files, dirPath, keep) + WalkSubdirs(subdirs, dirPath, prune, keep)
  }

  /** The walks of the sub-directories that survive pruning. */
  function WalkSubdirs(subdirs: seq<Tree>, dirPath: Path, prune: string -> bool, keep: string -> bool): seq<Path>
    decreases subdirs
  {
    if |subdirs| == 0 then []
    else
      var first := if prune(subdirs[0].name) then [] else Walk(subdirs[0], dirPath + [subdirs[0].name], prune, keep);
      first + WalkSubdirs(subdirs[1..], dirPath, prune, keep)
  }

  /** The pruning test of `scan_files`. */
  function PruneBy(keywords: seq<string>): string -> bool
  {
    d => Excluded(d, keywords)
  }

  /** The extension test of `scan_files`. */
  function KeepBy(allowed: set<string>): string -> bool
  {
    f => AllowedName(f, allowed)
  }

  /** `scan_files(root)`. The root directory itself is never pruned. */
  function ScanFiles(root: Tree, rootPath: Path, keywords: seq<string>, allowed: set<string>): seq<Path>
  {
    Walk(root, rootPath, PruneBy(keywords), KeepBy(allowed))
  }

  /** The paths whose final component `keep` accepts, in order. */
  function FilterBy(paths: seq<Path>, keep: string -> bool): (r: seq<Path>)
    ensures |r| <= |paths|
    ensures forall p :: p in r <==> p in paths && keep(FileName(p))
  {
    if |paths| == 0 then []
    else
      var here := if keep(FileName(paths[0])) then [paths[0]] else [];
      here + FilterBy(paths[1..], keep)
  }

  /** `filtered_files` in the ingestion run: the scanned paths whose final
      component has an allowed extension, in order. */
  function FilterAllowed(paths: seq<Path>, allowed: set<string>): (r: seq<Path>)
    ensures |r| <= |paths|
    ensures forall p :: p in r <==> p in paths && AllowedName(FileName(p), allowed)
  {
    FilterBy(paths, KeepBy(allowed))
  }

  // -----------------------------------------------------------------------
  // Reference: which relative paths lead to a file through kept directories
  // -----------------------------------------------------------------------

  /** `rel` names a file of the listable directory `t`, or leads through a
      sub-directory that `prune` does not reject to such a file. */
  ghost predicate Reaches(t: Tree, rel: seq<string>, prune: string -> bool)
    decreases t
  {
    && t.Dir?
    && |rel| >= 1
    && if |rel| == 1 then rel[0] in t.files
       else
         && !prune(rel[0])
         && exists k | 0 <= k < |t.subdirs| ::
              t.subdirs[k].name == rel[0] && Reaches(t.subdirs[k], rel[1..], prune)
  }

  /** No directory component of a reached path below the root is pruned. */
  lemma {:induction false} ReachesAvoidsPruned(t: Tree, rel: seq<string>, prune: string -> bool)
    requires Reaches(t, rel, prune)
    ensures forall i | 0 <= i < |rel| - 1 :: !prune(rel[i])
    decreases t
  {
    if |rel| > 1 {
      var k :| 0 <= k < |t.subdirs| && t.subdirs[k].name == rel[0] && Reaches(t.subdirs[k], rel[1..], prune);
      ReachesAvoidsPruned(t.subdirs[k], rel[1..], prune);
      forall i | 0 <= i < |rel| - 1
        ensures !prune(rel[i])
      {
        if i > 0 {
          assert rel[i] == rel[1..][i - 1];
        }
      }
    }
  }

  lemma {:induction false} KeptFilesMember(files: seq<string>, dirPath: Path, keep: string -> bool, p: Path)
    ensures p in KeptFiles(files, dirPath, keep) <==>
      (|p| == |dirPath| + 1 && p[..|dirPath|] == dirPath && p[|dirPath|] in files && keep(p[|dirPath|]))
  {
    if |files| > 0 {
      KeptFilesMember(files[1..], dirPath, keep, p);
      if p == dirPath + [files[0]] {
        assert p[|dirPath|] == files[0];
      }
      if |p| == |dirPath| + 1 && p[..|dirPath|] == dirPath && p[|dirPath|] == files[0] {
        assert p == dirPath + [files[0]];
      }
    }
  }

  lemma {:induction false} WalkSubdirsMember(subdirs: seq<Tree>, dirPath: Path, prune: string -> bool, keep: string -> bool, p: Path)
    ensures p in WalkSubdirs(subdirs, dirPath, prune, keep) <==>
      exists k | 0 <= k < |subdirs| ::
        !prune(subdirs[k].name) && p in Walk(subdirs[k], dirPath + [subdirs[k].name], prune, keep)
  {
    if |subdirs| > 0 {
      WalkSubdirsMember(subdirs[1..], dirPath, prune, keep, p);
      if exists k | 0 <= k < |subdirs| ::
           !prune(subdirs[k].name) && p in Walk(subdirs[k], dirPath + [subdirs[k].name], prune, keep)
      {
        var k :| 0 <= k < |subdirs| &&
          !prune(subdirs[k].name) && p in Walk(subdirs[k], dirPath + [subdirs[k].name], prune, keep);
        if k > 0 {
          assert subdirs[1..][k - 1] == subdirs[k];
        }
      }
      if p in WalkSubdirs(subdirs[1..], dirPath, prune, keep) {
        var k :| 0 <= k < |subdirs[1..]| &&
          !prune(subdirs[1..][k].name) && p in Walk(subdirs[1..][k], dirPath + [subdirs[1..][k].name], prune, keep);
        assert subdirs[1..][k] == subdirs[k + 1];
      }
    }
  }

  /** Everything the walk below `t` returns lies under `dirPath`, is reached
      through directories that are not pruned, and is kept. */
  lemma {:induction false} WalkSound(t: Tree, dirPath: Path, prune: string -> bool, keep: string -> bool, p: Path)
    requires p in Walk(t, dirPath, prune, keep)
    ensures |p| > |dirPath| && p[..|dirPath|] == dirPath
    ensures Reaches(t, p[|dirPath|..], prune)
    ensures keep(FileName(p))
    decreases t
  {
    assert t.Dir?;
    if p in KeptFiles(t.files, dirPath, keep) {
      KeptFilesMember(t.files, dirPath, keep, p);
      assert p[|dirPath|..] == [p[|dirPath|]];
    } else {
      assert p in WalkSubdirs(t.subdirs, dirPath, prune, keep);
      WalkSubdirsMember(t.subdirs, dirPath, prune, keep, p);
      var k :| 0 <= k < |t.subdirs| &&
        !prune(t.subdirs[k].name) && p in Walk(t.subdirs[k], dirPath + [t.subdirs[k].name], prune, keep);
      var sub := t.subdirs[k];
      var subPath := dirPath + [sub.name];
      WalkSound(sub, subPath, prune, keep, p);
      var rel := p[|dirPath|..];
      assert p[..|dirPath|] == p[..|subPath|][..|dirPath|];
      assert rel[0] == p[|dirPath|] == subPath[|dirPath|] == sub.name;
      assert rel[1..] == p[|subPath|..];
      assert Reaches(sub, rel[1..], prune);
    }
  }

  /** Every kept file reached through directories that are not pruned is
      returned. */
  lemma {:induction false} WalkComplete(t: Tree, dirPath: Path, prune: string -> bool, keep: string -> bool, rel: seq<string>)
    requires Reaches(t, rel, prune)
    requires keep(FileName(rel))
    ensures dirPath + rel in Walk(t, dirPath, prune, keep)
    decreases t
  {
    var p := dirPath + rel;
    assert FileName(p) == FileName(rel);
    if |rel| == 1 {
      KeptFilesMember(t.files, dirPath, keep, p);
      assert p[..|dirPath|] == dirPath && p[|dirPath|] == rel[0];
    } else {
      var k :| 0 <= k < |t.subdirs| && t.subdirs[k].name == rel[0] && Reaches(t.subdirs[k], rel[1..], prune);
      var sub := t.subdirs[k];
      assert FileName(rel[1..]) == FileName(rel);
      WalkComplete(sub, dirPath + [sub.name], prune, keep, rel[1..]);
      assert dirPath + [sub.name] + rel[1..] == p;
      WalkSubdirsMember(t.subdirs, dirPath, prune, keep, p);
    }
  }

  /** `scan_files` returns exactly the paths `rootPath + rel` of the files
      reached through directories whose names contain no excluded keyword,
      whose extension is allowed; no directory below the root on such a
      path contains an excluded keyword. */
  lemma ScanFilesExact(root: Tree, rootPath: Path, keywords: seq<string>, allowed: set<string>, p: Path)
    ensures p in ScanFiles(root, rootPath, keywords, allowed) <==>
      && |p| > |rootPath|
      && p[..|rootPath|] == rootPath
      && Reaches(root, p[|rootPath|..], PruneBy(keywords))
      && AllowedName(FileName(p), allowed)
    ensures p in ScanFiles(root, rootPath, keywords, allowed) ==>
      forall i | |rootPath| <= i < |p| - 1 :: !Excluded(p[i], keywords)
  {
    var prune := PruneBy(keywords);
    var keep := KeepBy(allowed);
    if p in ScanFiles(root, rootPath, keywords, allowed) {
      WalkSound(root, rootPath, prune, keep, p);
      var rel := p[|rootPath|..];
      ReachesAvoidsPruned(root, rel, prune);
      forall i | |rootPath| <= i < |p| - 1
        ensures !Excluded(p[i], keywords)
      {
        assert p[i] == rel[i - |rootPath|];
        assert !prune(rel[i - |rootPath|]);
      }
    }
    if |p| > |rootPath| && p[..|rootPath|] == rootPath && Reaches(root, p[|rootPath|..], prune)
       && AllowedName(FileName(p), allowed)
    {
      var rel := p[|rootPath|..];
      assert FileName(rel) == FileName(p);
      assert keep(FileName(rel));
      WalkComplete(root, rootPath, prune, keep, rel);
      assert rootPath + rel == p;
    }
  }

  /** Re-filtering the scanned paths by extension, as the ingestion run
      does, changes nothing. */
  lemma ScanAlreadyFiltered(root: Tree, rootPath: Path, keywords: seq<string>, allowed: set<string>)
    ensures FilterAllowed(ScanFiles(root, rootPath, keywords, allowed), allowed)
         == ScanFiles(root, rootPath, keywords, allowed)
  {
    var scanned := ScanFiles(root, rootPath, keywords, allowed);
    forall p | p in scanned
      ensures AllowedName(FileName(p), allowed)
    {
      ScanFilesExact(root, rootPath, keywords, allowed, p);
    }
    FilterKeeps(scanned, KeepBy(allowed));
  }

  /** Filtering paths that all pass keeps every one of them, in order. */
  lemma {:induction false} FilterKeeps(paths: seq<Path>, keep: string -> bool)
    requires forall p | p in paths :: keep(FileName(p))
    ensures FilterBy(paths, keep) == paths
  {
    if |paths| > 0 {
      assert paths[0] in paths;
      assert forall p | p in paths[1..] :: p in paths;
      FilterKeeps(paths[1..], keep);
      assert [paths[0]] + paths[1..] == paths;
    }
  }
}

=== FILE: extractors.dfy ===
/**
 The four readers of the ingestion core: `read_pdf`, `read_txt`, `read_py`
 and `read_ipynb`. Opening files, UTF-8 decoding with invalid bytes
 dropped, PDF parsing and JSON parsing happen outside the model; each
 reader receives what those steps produced (or that they failed) and
 assembles the text. No reader ever raises: every failure yields "".
 */
module Extractors {
  import opened Wrappers
  import opened PyStr

  // -----------------------------------------------------------------------
  // read_txt and read_py
  // -----------------------------------------------------------------------

  /** What opening and decoding a file produced: its text, or a failure. */
  datatype FileRead = ReadFailed | Decoded(text: string)

  /** `read_txt` and `read_py` (the two have the same body): the decoded
      text, or "" when opening or reading the file fails. */
  function ReadText(f: FileRead): string
  {
    match f
    case ReadFailed => ""
    case Decoded(t) => t
  }

  // -----------------------------------------------------------------------
  // read_pdf
  // -----------------------------------------------------------------------

  /** The outcome of `page.extract_text()` for one page: some text, no text
      (None), or an exception. */
  datatype PageText = Extracted(text: string) | NoText | ExtractError

  /** What `PdfReader(path)` produced: a failure to open or parse the file,
      or its pages in order. */
  datatype PdfDoc = PdfUnreadable | PdfPages(pages: seq<PageText>)

  /** `page.extract_text() or ""` for a page whose extraction did not raise. */
  function PageString(p: PageText): string
  {
    if p.Extracted? then p.text else ""
  }

  /** The list `texts` built by the page loop, or None when a page raises
      (which abandons the loop). */
  function PageStrings(pages: seq<PageText>): (r: Option<seq<string>>)
    ensures r.Some? <==> forall i | 0 <= i < |pages| :: !pages[i].ExtractError?
    ensures r.Some? ==> |r.value| == |pages|
    ensures r.Some? ==> forall i | 0 <= i < |pages| :: r.value[i] == PageString(pages[i])
  {
    if |pages| == 0 then Some([])
    else if pages[0].ExtractError? then None
    else
      match PageStrings(pages[1..])
      case None => None
      case Some(rest) => Some([PageString(pages[0])] + rest)
  }

  /** `read_pdf`: the page texts joined with "\n", a page without text
      counting as ""; "" when the file cannot be read or any page raises. */
  function ReadPdf(doc: PdfDoc): (r: string)
    ensures doc.PdfUnreadable? ==> r == ""
    ensures doc.PdfPages? && (exists i | 0 <= i < |doc.pages| :: doc.pages[i].ExtractError?) ==> r == ""
  {
    match doc
    case PdfUnreadable => ""
    case PdfPages(pages) =>
      match PageStrings(pages)
      case None => ""
      case Some(texts) => Join("\n", texts)
  }

  /** For a readable PDF, pages are kept in order: adding a page at the end
      adds a newline and that page's text (or nothing after the newline for
      a page without text), and the text is as long as the pages plus one
      newline between neighbours. */
  lemma ReadPdfPages(pages: seq<PageText>, p: PageText)
    requires |pages| > 0
    requires forall i | 0 <= i < |pages| :: !pages[i].ExtractError?
    requires !p.ExtractError?
    ensures ReadPdf(PdfPages(pages + [p])) == ReadPdf(PdfPages(pages)) + "\n" + PageString(p)
    ensures |ReadPdf(PdfPages(pages))|
         == TotalLength(PageStrings(pages).value) + |pages| - 1
  {
    var texts := PageStrings(pages).value;
    var texts' := PageStrings(pages + [p]).value;
    assert texts' == texts + [PageString(p)];
    JoinSnoc("\n", texts, PageString(p));
    JoinLength("\n", texts);
  }

  /** A readable PDF none of whose pages raises yields the "\n"-join, in
      page order, of each page's text ("" for a page without text). */
  lemma ReadPdfContents(pages: seq<PageText>)
    requires forall i | 0 <= i < |pages| :: !pages[i].ExtractError?
    ensures ReadPdf(PdfPages(pages))
         == Join("\n", seq(|pages|, i requires 0 <= i < |pages| => PageString(pages[i])))
  {
    var texts := PageStrings(pages).value;
    assert texts == seq(|pages|, i requires 0 <= i < |pages| => PageString(pages[i]));
  }

  // -----------------------------------------------------------------------
  // read_ipynb
  // -----------------------------------------------------------------------

  /** The `source` entry of a notebook cell: absent, a list of strings, a
      single string, or a value `"".join` rejects. */
  datatype CellSource = NoSource | SourceLines(lines: seq<string>) | SourceString(text: string) | SourceNotText

  /** A notebook cell: an object with an optional string `cell_type` (a
      non-string value is recorded as None, since it never equals "code" or
      "markdown") and a source, or a value that is not an object. */
  datatype Cell = CellObject(cellType: Option<string>, source: CellSource) | CellNotObject

  /** The `cells` entry of a notebook: absent, a list, or something else. */
  datatype Cells = NoCellsKey | CellList(cells: seq<Cell>) | CellsNotList

  /** The parsed JSON document: an object with its `cells` entry, or a value
      that is not an object. */
  datatype Notebook = NotebookObject(cells: Cells) | NotebookNotObject

  /** The cell types whose content `read_ipynb` keeps. */
  predicate Selected(c: Cell)
  {
    c.CellObject? && (c.cellType == Some("code") || c.cellType == Some("markdown"))
  }

  /** `"".join(cell.get("source", []))` for a source it accepts; a single
      string joins to itself. */
  function SourceText(s: CellSource): string
  {
    match s
    case NoSource => ""
    case SourceLines(lines) => Join("", lines)
    case SourceString(t) => t
    case SourceNotText => ""
  }

  /** The joined source of a cell object ("" for anything else). */
  function CellText(c: Cell): string
  {
    if c.CellObject? then SourceText(c.source) else ""
  }

  /** Visiting this cell raises: `.get` on a non-object, or `"".join` on the
      source of a kept cell. */
  predicate CellRaises(c: Cell)
  {
    c.CellNotObject? || (Selected(c) && c.source.SourceNotText?)
  }

  /** The code and markdown cells, in notebook order. */
  function KeptCells(cells: seq<Cell>): (r: seq<Cell>)
    ensures |r| <= |cells|
    ensures forall c :: c in r <==> c in cells && Selected(c)
  {
    if |cells| == 0 then []
    else if Selected(cells[0]) then [cells[0]] + KeptCells(cells[1..])
    else KeptCells(cells[1..])
  }

  /** The selection works cell by cell, so it keeps notebook order: the
      kept cells of a concatenation are the kept cells of each part, in
      turn. */
  lemma {:induction false} KeptCellsAppend(a: seq<Cell>, b: seq<Cell>)
    ensures KeptCells(a + b) == KeptCells(a) + KeptCells(b)
  {
    if |a| == 0 {
      assert a + b == b;
    } else {
      assert (a + b)[1..] == a[1..] + b;
      KeptCellsAppend(a[1..], b);
    }
  }

  /** The list `cells` built by the cell loop, or None when a cell raises.
      On success it holds the joined source of exactly the kept cells, in
      order. */
  function CellTexts(cells: seq<Cell>): (r: Option<seq<string>>)
    ensures r.None? <==> exists i | 0 <= i < |cells| :: CellRaises(cells[i])
    ensures r.Some? ==> |r.value| == |KeptCells(cells)|
    ensures r.Some? ==> forall k | 0 <= k < |r.value| :: r.value[k] == CellText(KeptCells(cells)[k])
  {
    if |cells| == 0 then Some([])
    else
      var c := cells[0];
      if CellRaises(c) then None
      else
        match CellTexts(cells[1..])
        case None => None
        case Some(rest) => if Selected(c) then Some([SourceText(c.source)] + rest) else Some(rest)
  }

  /** `read_ipynb`, given what reading and `json.load` produced (None when
      the file cannot be read or is not valid JSON). */
  function ReadIpynb(parsed: Option<Notebook>): (r: string)
    ensures parsed.None? ==> r == ""
    ensures parsed == Some(NotebookNotObject) ==> r == ""
    ensures parsed == Some(NotebookObject(NoCellsKey)) ==> r == ""
    ensures parsed == Some(NotebookObject(CellsNotList)) ==> r == ""
    ensures (parsed.Some? && parsed.value.NotebookObject? && parsed.value.cells.CellList? &&
             exists i | 0 <= i < |parsed.value.cells.cells| :: CellRaises(parsed.value.cells.cells[i]))
            ==> r == ""
  {
    match parsed
    case None => ""
    case Some(nb) =>
      match nb
      case NotebookNotObject => ""
      case NotebookObject(cs) =>
        match cs
        case NoCellsKey => ""
        case CellsNotList => ""
        case CellList(cells) =>
          match CellTexts(cells)
          case None => ""
          case Some(texts) => Join("\n\n", texts)
  }

  /** Cells other than code and markdown leave the result unchanged, wherever
      they stand. */
  lemma {:induction false} CellTextsSkipsOtherCells(before: seq<Cell>, c: Cell, after: seq<Cell>)
    requires c.CellObject? && !Selected(c)
    ensures CellTexts(before + [c] + after) == CellTexts(before + after)
    decreases |before|
  {
    if |before| == 0 {
      assert (before + [c] + after)[1..] == before + after;
    } else {
      assert (before + [c] + after)[0] == (before + after)[0];
      assert (before + [c] + after)[1..] == before[1..] + [c] + after;
      assert (before + after)[1..] == before[1..] + after;
      CellTextsSkipsOtherCells(before[1..], c, after);
    }
  }

  /** A notebook none of whose cells raises yields the "\n\n"-join, in
      order, of the joined sources of exactly its code and markdown cells. */
  lemma ReadIpynbContents(cells: seq<Cell>)
    requires forall i | 0 <= i < |cells| :: !CellRaises(cells[i])
    ensures var kept := KeptCells(cells);
      ReadIpynb(Some(NotebookObject(CellList(cells))))
        == Join("\n\n", seq(|kept|, k requires 0 <= k < |kept| => CellText(kept[k])))
  {
    var kept := KeptCells(cells);
    var texts := CellTexts(cells).value;
    assert texts == seq(|kept|, k requires 0 <= k < |kept| => CellText(kept[k]));
  }

  /** A list source joins its strings end to end. */
  lemma SourceLinesSnoc(lines: seq<string>, line: string)
    ensures SourceText(SourceLines(lines + [line])) == SourceText(SourceLines(lines)) + line
  {
    if |lines| == 0 {
      assert lines + [line] == [line];
    } else {
      JoinSnoc("", lines, line);
    }
  }
}

=== FILE: incremental.dfy ===
/**
 Incremental ingestion: the `source_path` values already in the vector
 collection, and the diff of the scanned files against them. The
 collection's reply to `get(include=["metadatas"])` is given as data: either
 the call failed, or it produced the `metadatas` list, whose items are
 metadata dicts (flat layout) or lists of them (nested layout).
 */
module Incremental {
  import opened Wrappers
  import opened PyStr
  import opened Discovery

  /** A stored metadata dict; only its `source_path` entry matters here. */
  datatype Meta = Meta(sourcePath: Option<Path>)

  /** An element of a nested item: a metadata dict, a falsy value (None or an
      empty container), a truthy value on which `"source_path" in sub` or
      `sub["source_path"]` raises (a number, a string containing
      "source_path", a list holding it), or a truthy value that does not
      contain the key. */
  datatype Sub = SubDict(meta: Meta) | SubFalsy | SubRaising | SubOther

  /** One item of the `metadatas` list: a dict, a list, or anything else. */
  datatype Item = DictItem(meta: Meta) | ListItem(subs: seq<Sub>) | OtherItem

  /** The outcome of fetching the metadata: `collection.get` (or iterating
      its reply) raised, or the list of items; a reply without a
      `metadatas` key is the empty list. */
  datatype Fetch = FetchFailed | Fetched(items: seq<Item>)

  /** The paths gathered so far and whether the loop stopped on an
      exception. */
  datatype Collected = Collected(paths: set<Path>, raised: bool)

  /** Visiting this element raises. */
  predicate SubRaises(s: Sub)
  {
    s.SubRaising?
  }

  /** Visiting this item raises. */
  predicate ItemRaises(it: Item)
  {
    it.ListItem? && exists j | 0 <= j < |it.subs| :: SubRaises(it.subs[j])
  }

  /** The element declares `p` as its `source_path`. A dict without the key
      declares nothing (and the empty dict is the falsy one). */
  predicate SubDeclares(s: Sub, p: Path)
  {
    s.SubDict? && s.meta.sourcePath == Some(p)
  }

  predicate ItemDeclares(it: Item, p: Path)
  {
    || (it.DictItem? && it.meta.sourcePath == Some(p))
    || (it.ListItem? && exists j | 0 <= j < |it.subs| :: SubDeclares(it.subs[j], p))
  }

  /** Some item of the list declares `p`. */
  predicate Declared(items: seq<Item>, p: Path)
  {
    exists i | 0 <= i < |items| :: ItemDeclares(items[i], p)
  }

  /** The inner loop over the elements of a nested item: an element that
      raises ends the whole loop, keeping what was added before it. */
  function CollectSubs(subs: seq<Sub>): (r: Collected)
    ensures r.raised <==> exists j | 0 <= j < |subs| :: SubRaises(subs[j])
    ensures forall p | p in r.paths :: exists j | 0 <= j < |subs| :: SubDeclares(subs[j], p)
    ensures !r.raised ==> forall p, j | 0 <= j < |subs| && SubDeclares(subs[j], p) :: p in r.paths
  {
    if |subs| == 0 then Collected({}, false)
    else
      var s := subs[0];
      if SubRaises(s) then Collected({}, true)
      else
        var rest := CollectSubs(subs[1..]);
        var here := if s.SubDict? && s.meta.sourcePath.Some? then {s.meta.sourcePath.value} else {};
        assert forall j | 0 <= j < |subs[1..]| :: subs[1..][j] == subs[j + 1];
        Collected(here + rest.paths, rest.raised)
  }

  /** One item of the outer loop. */
  function CollectItem(it: Item): Collected
  {
    match it
    case DictItem(m) => Collected(if m.sourcePath.Some? then {m.sourcePath.value} else {}, false)
    case ListItem(subs) => CollectSubs(subs)
    case OtherItem => Collected({}, false)
  }

  /** The outer loop over the items: the paths added before an exception are
      kept (the handler does not reset the set). */
  function CollectItems(items: seq<Item>): (r: Collected)
    ensures r.raised <==> exists i | 0 <= i < |items| :: ItemRaises(items[i])
    ensures forall p | p in r.paths :: Declared(items, p)
    ensures !r.raised ==> forall p | Declared(items, p) :: p in r.paths
  {
    if |items| == 0 then Collected({}, false)
    else
      var here := CollectItem(items[0]);
      if here.raised then here
      else
        var rest := CollectItems(items[1..]);
        assert forall i | 0 <= i < |items[1..]| :: items[1..][i] == items[i + 1];
        Collected(here.paths + rest.paths, rest.raised)
  }

  /** `existing_paths` after the fetch: empty when the fetch failed, and
      otherwise what the loops collected before finishing or raising. */
  function ExistingPaths(fetch: Fetch): (r: set<Path>)
    ensures fetch.FetchFailed? ==> r == {}
    ensures fetch.Fetched? ==> forall p | p in r :: Declared(fetch.items, p)
    ensures fetch.Fetched? && (forall i | 0 <= i < |fetch.items| :: !ItemRaises(fetch.items[i])) ==>
      forall p | Declared(fetch.items, p) :: p in r
  {
    match fetch
    case FetchFailed => {}
    case Fetched(items) => CollectItems(items).paths
  }

  /** Every path declared by the items before the first one that raises is
      collected, whatever follows. */
  lemma {:induction false} CollectKeepsPrefix(items: seq<Item>, k: nat, p: Path)
    requires k <= |items|
    requires forall i | 0 <= i < k :: !ItemRaises(items[i])
    requires Declared(items[..k], p)
    ensures p in CollectItems(items).paths
  {
    var i :| 0 <= i < k && ItemDeclares(items[..k][i], p);
    if i == 0 {
      var here := CollectItem(items[0]);
      assert !here.raised;
      if items[0].ListItem? {
        var j :| 0 <= j < |items[0].subs| && SubDeclares(items[0].subs[j], p);
      }
    } else {
      assert items[1..][..k - 1][i - 1] == items[..k][i];
      CollectKeepsPrefix(items[1..], k - 1, p);
    }
  }

  /** Within a list item, the inner loop collects exactly the paths declared
      before the first element that raises (all of them when none raises). */
  lemma {:induction false} CollectSubsUpTo(subs: seq<Sub>, m: nat, p: Path)
    requires m <= |subs|
    requires forall j | 0 <= j < m :: !SubRaises(subs[j])
    requires m == |subs| || SubRaises(subs[m])
    ensures p in CollectSubs(subs).paths <==> exists j | 0 <= j < m :: SubDeclares(subs[j], p)
  {
    if m > 0 {
      var rest := subs[1..];
      assert forall j | 0 <= j < |rest| :: rest[j] == subs[j + 1];
      CollectSubsUpTo(rest, m - 1, p);
      if exists j | 0 <= j < m :: SubDeclares(subs[j], p) {
        var j :| 0 <= j < m && SubDeclares(subs[j], p);
        if j > 0 {
          assert SubDeclares(rest[j - 1], p);
        }
      }
      if exists j | 0 <= j < m - 1 :: SubDeclares(rest[j], p) {
        var j :| 0 <= j < m - 1 && SubDeclares(rest[j], p);
        assert SubDeclares(subs[j + 1], p);
      }
    }
  }

  /** When item `k` is the first that raises, the outer loop ends with the
      paths of the items before it and what the inner loop of item `k`
      collected: nothing from later items. */
  lemma {:induction false} CollectItemsUpTo(items: seq<Item>, k: nat, p: Path)
    requires k < |items|
    requires forall i | 0 <= i < k :: !ItemRaises(items[i])
    requires ItemRaises(items[k])
    ensures p in CollectItems(items).paths <==>
      Declared(items[..k], p) || p in CollectSubs(items[k].subs).paths
  {
    var rest := items[1..];
    assert forall i | 0 <= i < |rest| :: rest[i] == items[i + 1];
    if k > 0 {
      CollectItemsUpTo(rest, k - 1, p);
      assert rest[..k - 1] == items[1..k];
      var here := CollectItem(items[0]);
      assert !here.raised;
      assert p in here.paths <==> ItemDeclares(items[0], p);
      if Declared(items[..k], p) {
        var i :| 0 <= i < k && ItemDeclares(items[..k][i], p);
        if i > 0 {
          assert ItemDeclares(rest[..k - 1][i - 1], p);
        }
      }
    }
  }

  /** An exception stops the collection: when element `m` of item `k` is
      the first to raise, the existing paths are exactly those declared by
      the items before `k` and by the elements of item `k` before `m`. */
  lemma CollectStopsAtRaise(items: seq<Item>, k: nat, m: nat, p: Path)
    requires k < |items|
    requires forall i | 0 <= i < k :: !ItemRaises(items[i])
    requires items[k].ListItem? && m < |items[k].subs| && SubRaises(items[k].subs[m])
    requires forall j | 0 <= j < m :: !SubRaises(items[k].subs[j])
    ensures p in ExistingPaths(Fetched(items)) <==>
      Declared(items[..k], p) || exists j | 0 <= j < m :: SubDeclares(items[k].subs[j], p)
  {
    CollectItemsUpTo(items, k, p);
    CollectSubsUpTo(items[k].subs, m, p);
  }

  /** The flat layout: dict items only, all with a `source_path`. The
      collected set is exactly their paths. */
  lemma FlatItemsCollected(items: seq<Item>, p: Path)
    requires forall i | 0 <= i < |items| :: items[i].DictItem?
    ensures p in ExistingPaths(Fetched(items)) <==>
      exists i | 0 <= i < |items| :: items[i].meta.sourcePath == Some(p)
  {
  }

  // -----------------------------------------------------------------------
  // new_files
  // -----------------------------------------------------------------------

  /** `[f for f in filtered_files if f not in existing_paths]`. */
  function NewFiles(files: seq<Path>, existing: set<Path>): (r: seq<Path>)
    ensures |r| <= |files|
    ensures forall f :: f in r <==> f in files && f !in existing
  {
    if |files| == 0 then []
    else
      var here := if files[0] in existing then [] else [files[0]];
      here + NewFiles(files[1..], existing)
  }

  /** The diff works file by file, so it keeps the scanned order: the diff
      of a concatenation is the concatenation of the diffs. */
  lemma {:induction false} NewFilesAppend(a: seq<Path>, b: seq<Path>, existing: set<Path>)
    ensures NewFiles(a + b, existing) == NewFiles(a, existing) + NewFiles(b, existing)
  {
    if |a| == 0 {
      assert a + b == b;
    } else {
      assert (a + b)[1..] == a[1..] + b;
      NewFilesAppend(a[1..], b, existing);
    }
  }

  /** When nothing is indexed every file is new, in the same order. */
  lemma {:induction false} NewFilesNoneIndexed(files: seq<Path>, existing: set<Path>)
    requires forall i | 0 <= i < |files| :: files[i] !in existing
    ensures NewFiles(files, existing) == files
  {
    if |files| > 0 {
      NewFilesNoneIndexed(files[1..], existing);
      assert [files[0]] + files[1..] == files;
    }
  }

  /** When every file is indexed there is nothing to do. */
  lemma {:induction false} NewFilesAllIndexed(files: seq<Path>, existing: set<Path>)
    requires forall i | 0 <= i < |files| :: files[i] in existing
    ensures NewFiles(files, existing) == []
  {
    if |files| > 0 {
      NewFilesAllIndexed(files[1..], existing);
    }
  }
}

=== FILE: ingest.dfy ===
/**
 The ingestion run (`main` of ingest.py) as a fold. The files still to be
 indexed are visited in scan order; each is dispatched by extension to a
 reader and a chunk configuration; each chunk of its text is turned into a
 text to store (the chunk itself in fast mode, a model summary otherwise),
 embedded and added to the collection under the next `doc_<n>` id.

 The summariser, the embedding function and `collection.add` are outside
 the model: they are given as functions that may fail. A failing
 embedding or add is caught and the run continues; a failing summary is
 not caught in `main`, so it ends the run (what was added stays added).
 */
module Ingest {
  import opened Wrappers
  import opened PyStr
  import opened Chunker
  import opened Extractors
  import opened Discovery
  import opened Incremental

  // -----------------------------------------------------------------------
  // Configuration and dispatch
  // -----------------------------------------------------------------------

  datatype Category = Doc | Code

  /** The `file_type` tag written into the metadata. */
  function Tag(c: Category): string
  {
    match c
    case Doc => "doc"
    case Code => "code"
  }

  datatype Reader = PdfReader | TxtReader | PyReader | IpynbReader

  /** Where a file goes: the reader for its text and its category. */
  datatype Route = Route(reader: Reader, category: Category)

  /** The settings the run reads from its configuration. */
  datatype Config = Config(
    rootPath: Path,
    allowed: set<string>,
    excludeKeywords: seq<string>,
    docExts: seq<string>,
    codeExts: seq<string>,
    docSize: int,
    docOverlap: int,
    codeSize: int,
    codeOverlap: int,
    docModel: string,
    codeModel: string,
    fastMode: bool)
  {
    /** Both chunk configurations step forward (`chunk_text` loops forever
        otherwise). */
    predicate Valid()
    {
      docOverlap < docSize && codeOverlap < codeSize
    }
  }

  /** The configuration of config.py: documents are chunked 1200/200 and
      code 400/50; the root, the allowed extensions, the excluded directory
      keywords and fast mode are settings of the deployment. */
  function StandardConfig(rootPath: Path, allowed: set<string>, excludeKeywords: seq<string>, fastMode: bool): (cfg: Config)
    ensures cfg.Valid()
    ensures 0 <= cfg.docOverlap && 0 <= cfg.codeOverlap
  {
    Config(rootPath, allowed, excludeKeywords,
           [".pdf", ".txt"], [".py", ".ipynb"],
           1200, 200, 400, 50,
           "qwen2:7b", "deepseek-r1:7b", fastMode)
  }

  /** The branch of the file loop a (lower-cased) extension selects; None
      means the file is skipped. Document extensions are tested first. */
  function Dispatch(ext: string, cfg: Config): (r: Option<Route>)
    ensures r.Some? <==> ext in cfg.docExts || ext in cfg.codeExts
    ensures r.Some? ==> (r.value.category == Doc <==> ext in cfg.docExts)
  {
    if ext in cfg.docExts then Some(Route(if ext == ".pdf" then PdfReader else TxtReader, Doc))
    else if ext in cfg.codeExts then Some(Route(if ext == ".py" then PyReader else IpynbReader, Code))
    else None
  }

  /** With the standard extension lists, each supported extension has its
      own reader and nothing else is processed. */
  lemma DispatchStandard(rootPath: Path, allowed: set<string>, keywords: seq<string>, fastMode: bool, ext: string)
    ensures var cfg := StandardConfig(rootPath, allowed, keywords, fastMode);
      && Dispatch(".pdf", cfg) == Some(Route(PdfReader, Doc))
      && Dispatch(".txt", cfg) == Some(Route(TxtReader, Doc))
      && Dispatch(".py", cfg) == Some(Route(PyReader, Code))
      && Dispatch(".ipynb", cfg) == Some(Route(IpynbReader, Code))
      && (ext !in {".pdf", ".txt", ".py", ".ipynb"} ==> Dispatch(ext, cfg) == None)
  {
  }

  function SizeFor(cfg: Config, c: Category): int
  {
    if c == Doc then cfg.docSize else cfg.codeSize
  }

  function OverlapFor(cfg: Config, c: Category): int
  {
    if c == Doc then cfg.docOverlap else cfg.codeOverlap
  }

  function ModelFor(cfg: Config, c: Category): string
  {
    if c == Doc then cfg.docModel else cfg.codeModel
  }

  // -----------------------------------------------------------------------
  // Reading and chunking one file
  // -----------------------------------------------------------------------

  /** What each reader finds on disk for a path. */
  datatype Disk = Disk(pdf: Path -> PdfDoc, text: Path -> FileRead, notebook: Path -> Option<Notebook>)

  /** `raw_text` for a file read by `reader`. */
  function Extract(disk: Disk, reader: Reader, path: Path): string
  {
    match reader
    case PdfReader => ReadPdf(disk.pdf(path))
    case TxtReader => ReadText(disk.text(path))
    case PyReader => ReadText(disk.text(path))
    case IpynbReader => ReadIpynb(disk.notebook(path))
  }

  /** The route of a path, by the extension of its final component. */
  function RouteOf(cfg: Config, path: Path): Option<Route>
  {
    Dispatch(Ext(FileName(path)), cfg)
  }

  /** The text of a routed file. */
  function RawText(cfg: Config, disk: Disk, path: Path): string
  {
    match RouteOf(cfg, path)
    case None => ""
    case Some(route) => Extract(disk, route.reader, path)
  }

  /** The chunks of a routed file, with its category's size and overlap. */
  function FileChunks(cfg: Config, disk: Disk, path: Path): seq<string>
    requires cfg.Valid()
  {
    match RouteOf(cfg, path)
    case None => []
    case Some(route) =>
      ChunkText(RawText(cfg, disk, path), SizeFor(cfg, route.category), OverlapFor(cfg, route.category))
  }

  // -----------------------------------------------------------------------
  // Services, entries and the state of a run
  // -----------------------------------------------------------------------

  /** Which chunk of which file a service call is about; it lets the
      services answer differently for every call. */
  datatype Position = Position(path: Path, index: nat)

  /** The summariser's answer, or the exception it raised. */
  datatype Reply = Reply(text: string) | LlmFailure

  /** An embedding vector; its contents do not matter here. */
  type Embedding = seq<real>

  /** The metadata stored with every entry: exactly these two keys. */
  datatype Metadata = Metadata(sourcePath: Path, fileType: string)

  /** The services: the summariser (given the model and the chunk), the
      embedding function (None when it raises) and `collection.add` (false
      when it raises). */
  datatype Services = Services(
    summarize: (Position, string, string) -> Reply,
    embed: (Position, string) -> Option<Embedding>,
    add: (string, string, Embedding, Metadata) -> bool)

  /** An entry the collection accepted; its id is `doc_<number>`. */
  datatype Entry = Entry(number: nat, text: string, embedding: Embedding, meta: Metadata)

  /** `f"doc_{n}"`. */
  function DocId(n: nat): string
  {
    "doc_" + Decimal(n)
  }

  /** The entries added so far, the id counter, and whether the run ended
      on an exception. */
  datatype Run = Run(stored: seq<Entry>, counter: nat, crashed: bool)

  /** The run before the first file. */
  const Start := Run([], 0, false)

  /** `r` continues `st`: the entries of `st` are kept in order, the counter
      does not go back, and an ended run stays ended. */
  predicate Grows(st: Run, r: Run)
  {
    && |st.stored| <= |r.stored|
    && r.stored[..|st.stored|] == st.stored
    && st.counter <= r.counter
    && (st.crashed ==> r.crashed)
  }

  /** Entry numbers strictly increase and are all below the counter. */
  predicate WellNumbered(run: Run)
  {
    && (forall i, j | 0 <= i < j < |run.stored| :: run.stored[i].number < run.stored[j].number)
    && (forall i | 0 <= i < |run.stored| :: run.stored[i].number < run.counter)
  }

  /** A text that may be stored for `chunk`: the chunk is not blank, and the
      text is `chunk[:1500]` in fast mode, a non-blank summary otherwise. */
  predicate StoredFrom(cfg: Config, chunk: string, text: string)
  {
    && Strip(chunk) != ""
    && (if cfg.fastMode then text == Slice(chunk, 0, 1500) else Strip(text) != "")
  }

  predicate StoredFromSome(cfg: Config, chunks: seq<string>, text: string)
  {
    exists k | 0 <= k < |chunks| :: StoredFrom(cfg, chunks[k], text)
  }

  // -----------------------------------------------------------------------
  // One chunk
  // -----------------------------------------------------------------------

  /** What the loop body decides for a chunk before embedding. */
  datatype Payload = Skip | Abort | Store(text: string)

  function ChunkPayload(cfg: Config, svc: Services, pos: Position, model: string, chunk: string): (r: Payload)
    ensures Strip(chunk) == "" ==> r == Skip
    ensures r.Abort? ==> !cfg.fastMode
    ensures r.Store? ==> StoredFrom(cfg, chunk, r.text)
  {
    if Strip(chunk) == "" then Skip
    else if cfg.fastMode then Store(Slice(chunk, 0, 1500))
    else
      match svc.summarize(pos, model, chunk)
      case LlmFailure => Abort
      case Reply(t) => if Strip(t) == "" then Skip else Store(t)
  }

  /** What one pass does to a live run: nothing, end it, use an id without
      an entry (the add failed), or add an entry under the next id. */
  datatype Effect = NoEffect | EndRun | UseId | AddEntry(text: string, embedding: Embedding, meta: Metadata)

  /** The effect of the loop body for `chunk` when the next id is
      `doc_<n>`: the payload, then the embedding (a failure skips the
      chunk before the id is taken), then the add. */
  function Decide(cfg: Config, svc: Services, pos: Position, model: string, tag: string, chunk: string, n: nat): Effect
  {
    match ChunkPayload(cfg, svc, pos, model, chunk)
    case Skip => NoEffect
    case Abort => EndRun
    case Store(text) =>
      match svc.embed(pos, text)
      case None => NoEffect
      case Some(e) =>
        var meta := Metadata(pos.path, tag);
        if svc.add(DocId(n), text, e, meta) then AddEntry(text, e, meta) else UseId
  }

  /** Carrying out an effect. */
  function Apply(st: Run, eff: Effect): Run
  {
    match eff
    case NoEffect => st
    case EndRun => st.(crashed := true)
    case UseId => st.(counter := st.counter + 1)
    case AddEntry(text, e, meta) => Run(st.stored + [Entry(st.counter, text, e, meta)], st.counter + 1, st.crashed)
  }

  /** One pass of the chunk loop; a run that has ended is left alone. */
  function StoreChunk(cfg: Config, svc: Services, pos: Position, model: string, tag: string, chunk: string, st: Run): Run
  {
    if st.crashed then st else Apply(st, Decide(cfg, svc, pos, model, tag, chunk, st.counter))
  }

  /** `next` is `st` with at most one more entry, which is numbered with
      `st`'s counter, carries the metadata of `path` and has a text `ok`
      accepts; at most one id is used, and it is used when an entry is
      added. */
  predicate OneStep(path: Path, tag: string, ok: string -> bool, st: Run, next: Run)
  {
    && Grows(st, next)
    && next.counter <= st.counter + 1
    && |next.stored| <= |st.stored| + 1
    && (|next.stored| == |st.stored| + 1 ==>
          && next.stored[|st.stored|].number == st.counter
          && next.stored[|st.stored|].meta == Metadata(path, tag)
          && ok(next.stored[|st.stored|].text)
          && next.counter == st.counter + 1)
  }

  /** An entry a pass adds carries the file's metadata and a text that may
      be stored for the chunk. */
  lemma DecideAdds(cfg: Config, svc: Services, pos: Position, model: string, tag: string, chunk: string, n: nat)
    ensures var eff := Decide(cfg, svc, pos, model, tag, chunk, n);
      eff.AddEntry? ==> eff.meta == Metadata(pos.path, tag) && StoredFrom(cfg, chunk, eff.text)
  {
  }

  /** Any effect whose entry `ok` accepts is one step. */
  lemma ApplyOneStep(path: Path, tag: string, ok: string -> bool, st: Run, eff: Effect)
    requires eff.AddEntry? ==> eff.meta == Metadata(path, tag) && ok(eff.text)
    ensures OneStep(path, tag, ok, st, Apply(st, eff))
  {
    var r := Apply(st, eff);
    if eff.AddEntry? {
      assert r.stored[..|st.stored|] == st.stored;
    }
  }

  /** A run that has ended stays as it is, and a blank chunk is skipped
      before any service is called; a skipped chunk (blank, or with a blank
      summary) leaves the run as it was, so it uses no id. */
  lemma StoreChunkSkips(cfg: Config, svc: Services, pos: Position, model: string, tag: string, chunk: string, st: Run)
    ensures st.crashed || Strip(chunk) == "" ==> StoreChunk(cfg, svc, pos, model, tag, chunk, st) == st
    ensures ChunkPayload(cfg, svc, pos, model, chunk).Skip? ==> StoreChunk(cfg, svc, pos, model, tag, chunk, st) == st
  {
  }

  /** The payload case by case: fast mode stores `chunk[:1500]` of every
      chunk that is not blank; otherwise the summariser decides: an
      exception ends the run, a blank summary skips the chunk, and any
      other summary is stored as it is. */
  lemma PayloadCases(cfg: Config, svc: Services, pos: Position, model: string, chunk: string)
    requires Strip(chunk) != ""
    ensures var r := ChunkPayload(cfg, svc, pos, model, chunk);
      && (cfg.fastMode ==> r == Store(Slice(chunk, 0, 1500)))
      && (!cfg.fastMode ==>
            var reply := svc.summarize(pos, model, chunk);
            && (r.Abort? <==> reply.LlmFailure?)
            && (reply.Reply? ==> (r.Skip? <==> Strip(reply.text) == ""))
            && (r.Store? ==> reply == Reply(r.text)))
  {
  }

  /** A summariser exception (outside fast mode, for a chunk that is not
      blank) ends the run, and ending the run adds nothing; fast mode never
      calls the summariser, so it never ends the run. */
  lemma StoreChunkEnds(cfg: Config, svc: Services, pos: Position, model: string, tag: string, chunk: string, st: Run)
    ensures var r := StoreChunk(cfg, svc, pos, model, tag, chunk, st);
      && (r.crashed && !st.crashed ==> r.stored == st.stored && !cfg.fastMode)
      && (!st.crashed && !cfg.fastMode && Strip(chunk) != "" && svc.summarize(pos, model, chunk).LlmFailure? ==> r.crashed)
  {
  }

  /** Once there is a text to store: a failed embedding skips the chunk
      without using an id; otherwise the id `doc_<counter>` is used, and the
      entries stay as they were exactly when the add fails. */
  lemma StoreChunkIds(cfg: Config, svc: Services, pos: Position, model: string, tag: string, chunk: string, st: Run)
    requires !st.crashed && ChunkPayload(cfg, svc, pos, model, chunk).Store?
    ensures var r := StoreChunk(cfg, svc, pos, model, tag, chunk, st);
      var text := ChunkPayload(cfg, svc, pos, model, chunk).text;
      && (svc.embed(pos, text).None? ==> r == st)
      && (svc.embed(pos, text).Some? ==>
            && r.counter == st.counter + 1
            && (r.stored == st.stored <==>
                  !svc.add(DocId(st.counter), text, svc.embed(pos, text).value, Metadata(pos.path, tag))))
  {
    var text := ChunkPayload(cfg, svc, pos, model, chunk).text;
    var eff := Decide(cfg, svc, pos, model, tag, chunk, st.counter);
    assert StoreChunk(cfg, svc, pos, model, tag, chunk, st) == Apply(st, eff);
    match svc.embed(pos, text)
    case None =>
      assert eff == NoEffect;
    case Some(e) =>
      var meta := Metadata(pos.path, tag);
      if svc.add(DocId(st.counter), text, e, meta) {
        assert eff == AddEntry(text, e, meta);
        assert |Apply(st, eff).stored| == |st.stored| + 1;
      } else {
        assert eff == UseId;
      }
  }

  // -----------------------------------------------------------------------
  // The chunk loop and the file loop
  // -----------------------------------------------------------------------

  /** The entries `r` added after those of `st` were numbered from `st`'s
      counter up, carry the metadata of `path`, and have texts that `ok`
      accepts. */
  predicate AddedFrom(path: Path, tag: string, ok: string -> bool, st: Run, r: Run)
    requires |st.stored| <= |r.stored|
  {
    forall i | |st.stored| <= i < |r.stored| ::
      && st.counter <= r.stored[i].number < r.counter
      && r.stored[i].meta == Metadata(path, tag)
      && ok(r.stored[i].text)
  }

  /** The texts that may be stored for some chunk of `chunks`. */
  function FromChunks(cfg: Config, chunks: seq<string>): string -> bool
  {
    text => StoredFromSome(cfg, chunks, text)
  }

  /** Two steps that each continue a run compose. */
  lemma GrowsTrans(a: Run, b: Run, c: Run)
    requires Grows(a, b) && Grows(b, c)
    ensures Grows(a, c)
    ensures forall i | |a.stored| <= i < |b.stored| :: c.stored[i] == b.stored[i]
  {
    assert c.stored[..|a.stored|] == c.stored[..|b.stored|][..|a.stored|];
    forall i | |a.stored| <= i < |b.stored|
      ensures c.stored[i] == b.stored[i]
    {
      assert c.stored[..|b.stored|][i] == c.stored[i];
    }
  }

  /** Numbering is kept when the added entries are numbered from the old
      counter up. */
  lemma WellNumberedExtend(st: Run, r: Run)
    requires WellNumbered(st) && Grows(st, r)
    requires forall i | |st.stored| <= i < |r.stored| :: st.counter <= r.stored[i].number < r.counter
    requires forall i, j | |st.stored| <= i < j < |r.stored| :: r.stored[i].number < r.stored[j].number
    ensures WellNumbered(r)
  {
    forall i | 0 <= i < |st.stored|
      ensures r.stored[i] == st.stored[i]
    {
      assert r.stored[..|st.stored|][i] == r.stored[i];
    }
  }

  /** The new entries of `r` are numbered in increasing order. */
  predicate IncreasingFrom(st: Run, r: Run)
  {
    forall i, j | |st.stored| <= i < j < |r.stored| :: r.stored[i].number < r.stored[j].number
  }

  /** The chunk loop of one file from chunk `k` on; a run that has ended
      visits no further chunk. */
  function ProcessChunks(cfg: Config, svc: Services, path: Path, model: string, tag: string,
                         chunks: seq<string>, k: nat, st: Run): Run
    requires k <= |chunks|
    decreases |chunks| - k
  {
    if k == |chunks| || st.crashed then st
    else ProcessChunks(cfg, svc, path, model, tag, chunks, k + 1,
                       StoreChunk(cfg, svc, Position(path, k), model, tag, chunks[k], st))
  }

  /** The chunk loop continues the run, uses at most one id per chunk, and
      every entry it adds is numbered from the old counter up, in
      increasing order, carries this file's metadata and came from one of
      its chunks. */
  lemma {:induction false} ChunkLoopGrows(cfg: Config, svc: Services, path: Path, model: string, tag: string,
                                          chunks: seq<string>, k: nat, st: Run)
    requires k <= |chunks|
    ensures var r := ProcessChunks(cfg, svc, path, model, tag, chunks, k, st);
      && Grows(st, r)
      && r.counter <= st.counter + (|chunks| - k)
      && AddedFrom(path, tag, FromChunks(cfg, chunks), st, r)
      && IncreasingFrom(st, r)
      && (st.crashed ==> r == st)
    decreases |chunks| - k
  {
    if k < |chunks| && !st.crashed {
      var ok := FromChunks(cfg, chunks);
      var next := StoreChunk(cfg, svc, Position(path, k), model, tag, chunks[k], st);
      var eff := Decide(cfg, svc, Position(path, k), model, tag, chunks[k], st.counter);
      assert next == Apply(st, eff);
      assert eff.AddEntry? ==> eff.meta == Metadata(path, tag) && ok(eff.text) by {
        DecideAdds(cfg, svc, Position(path, k), model, tag, chunks[k], st.counter);
        if eff.AddEntry? {
          assert StoredFrom(cfg, chunks[k], eff.text);
        }
      }
      ApplyOneStep(path, tag, ok, st, eff);
      ChunkLoopGrows(cfg, svc, path, model, tag, chunks, k + 1, next);
      ChunkStepComposes(path, tag, ok, st, next, ProcessChunks(cfg, svc, path, model, tag, chunks, k + 1, next));
    }
  }

  /** The step from `st` to `next` handles chunk `k`; the rest of the loop
      takes `next` to `r`. */
  lemma ChunkStepComposes(path: Path, tag: string, ok: string -> bool, st: Run, next: Run, r: Run)
    requires OneStep(path, tag, ok, st, next)
    requires Grows(next, r) && AddedFrom(path, tag, ok, next, r) && IncreasingFrom(next, r)
    ensures Grows(st, r)
    ensures AddedFrom(path, tag, ok, st, r)
    ensures IncreasingFrom(st, r)
  {
    GrowsTrans(st, next, r);
    var n := |st.stored|;
    if |next.stored| == n + 1 {
      assert r.stored[n] == next.stored[n];
    }
  }

  /** One iteration of the file loop: unrouted files and files whose text
      is blank are skipped. */
  function ProcessFile(cfg: Config, disk: Disk, svc: Services, path: Path, st: Run): Run
    requires cfg.Valid()
  {
    match RouteOf(cfg, path)
    case None => st
    case Some(route) =>
      if Strip(RawText(cfg, disk, path)) == "" then st
      else
        var c := route.category;
        ProcessChunks(cfg, svc, path, ModelFor(cfg, c), Tag(c), FileChunks(cfg, disk, path), 0, st)
  }

  /** What the reader for `path` received means failure: a PDF that cannot
      be opened or has a page whose extraction raises, a text or Python file
      that cannot be opened or read, or a notebook that cannot be read or
      parsed, is not an object with a `cells` list, or has a cell that
      raises. */
  predicate InputFails(disk: Disk, reader: Reader, path: Path)
  {
    match reader
    case PdfReader =>
      var doc := disk.pdf(path);
      doc.PdfUnreadable? || exists i | 0 <= i < |doc.pages| :: doc.pages[i].ExtractError?
    case TxtReader => disk.text(path).ReadFailed?
    case PyReader => disk.text(path).ReadFailed?
    case IpynbReader =>
      var nb := disk.notebook(path);
      || nb.None?
      || !nb.value.NotebookObject?
      || !nb.value.cells.CellList?
      || exists i | 0 <= i < |nb.value.cells.cells| :: CellRaises(nb.value.cells.cells[i])
  }

  /** A file whose reader fails contributes nothing: the reader yields "",
      the file is skipped as blank, and the run goes on unchanged. */
  lemma FailedReadStoresNothing(cfg: Config, disk: Disk, svc: Services, path: Path, st: Run)
    requires cfg.Valid()
    requires RouteOf(cfg, path).Some? && InputFails(disk, RouteOf(cfg, path).value.reader, path)
    ensures RawText(cfg, disk, path) == ""
    ensures ProcessFile(cfg, disk, svc, path, st) == st
  {
  }

  /** An entry fits its file: the file is routed, its text is not blank,
      the tag is its category's, and the stored text came from one of its
      chunks. */
  predicate EntryFits(cfg: Config, disk: Disk, e: Entry)
    requires cfg.Valid()
  {
    var path := e.meta.sourcePath;
    && RouteOf(cfg, path).Some?
    && Strip(RawText(cfg, disk, path)) != ""
    && e.meta.fileType == Tag(RouteOf(cfg, path).value.category)
    && StoredFromSome(cfg, FileChunks(cfg, disk, path), e.text)
  }

  /** The entries `r` added after those of `st` fit their files, came from
      one of `files`, and are numbered from `st`'s counter up. */
  predicate AddedFits(cfg: Config, disk: Disk, files: seq<Path>, st: Run, r: Run)
    requires cfg.Valid()
  {
    forall i | |st.stored| <= i < |r.stored| ::
      && EntryFits(cfg, disk, r.stored[i])
      && r.stored[i].meta.sourcePath in files
      && st.counter <= r.stored[i].number
  }

  /** A file continues the run with well-fitting entries for that file, and
      keeps the numbering; a skipped file changes nothing. */
  lemma FileStepGrows(cfg: Config, disk: Disk, svc: Services, path: Path, st: Run)
    requires cfg.Valid()
    ensures var r := ProcessFile(cfg, disk, svc, path, st);
      && Grows(st, r)
      && AddedFits(cfg, disk, [path], st, r)
      && (WellNumbered(st) ==> WellNumbered(r))
      && (st.crashed ==> r == st)
      && (RouteOf(cfg, path).None? || Strip(RawText(cfg, disk, path)) == "" ==> r == st)
  {
    var r := ProcessFile(cfg, disk, svc, path, st);
    if RouteOf(cfg, path).Some? && Strip(RawText(cfg, disk, path)) != "" {
      var c := RouteOf(cfg, path).value.category;
      var chunks := FileChunks(cfg, disk, path);
      ChunkLoopGrows(cfg, svc, path, ModelFor(cfg, c), Tag(c), chunks, 0, st);
      forall i | |st.stored| <= i < |r.stored|
        ensures EntryFits(cfg, disk, r.stored[i]) && r.stored[i].meta.sourcePath in [path]
      {
        assert r.stored[i].meta == Metadata(path, Tag(c));
        assert FromChunks(cfg, chunks)(r.stored[i].text);
      }
      if WellNumbered(st) {
        WellNumberedExtend(st, r);
      }
    }
  }

  /** The file loop over `files`. */
  function ProcessFiles(cfg: Config, disk: Disk, svc: Services, files: seq<Path>, st: Run): Run
    requires cfg.Valid()
  {
    if |files| == 0 then st
    else ProcessFiles(cfg, disk, svc, files[1..], ProcessFile(cfg, disk, svc, files[0], st))
  }

  /** The file loop continues the run; every entry it adds fits its file
      and came from the list; the numbering is kept. */
  lemma {:induction false} FileLoopGrows(cfg: Config, disk: Disk, svc: Services, files: seq<Path>, st: Run)
    requires cfg.Valid()
    ensures var r := ProcessFiles(cfg, disk, svc, files, st);
      && Grows(st, r)
      && AddedFits(cfg, disk, files, st, r)
      && (WellNumbered(st) ==> WellNumbered(r))
  {
    if |files| > 0 {
      var next := ProcessFile(cfg, disk, svc, files[0], st);
      var r := ProcessFiles(cfg, disk, svc, files[1..], next);
      FileStepGrows(cfg, disk, svc, files[0], st);
      FileLoopGrows(cfg, disk, svc, files[1..], next);
      GrowsTrans(st, next, r);
      forall i | |st.stored| <= i < |r.stored|
        ensures EntryFits(cfg, disk, r.stored[i])
        ensures r.stored[i].meta.sourcePath in files
        ensures st.counter <= r.stored[i].number
      {
        if i >= |next.stored| {
          assert r.stored[i].meta.sourcePath in files[1..];
        }
      }
    }
  }

  // -----------------------------------------------------------------------
  // The run
  // -----------------------------------------------------------------------

  /** `new_files`: the scanned files, filtered by extension once more, minus
      the paths already in the collection. */
  function Pending(cfg: Config, tree: Tree, fetch: Fetch): seq<Path>
  {
    NewFiles(FilterAllowed(ScanFiles(tree, cfg.rootPath, cfg.excludeKeywords, cfg.allowed), cfg.allowed),
             ExistingPaths(fetch))
  }

  /** `main`, from the scan to the end of the file loop. */
  function RunIngest(cfg: Config, tree: Tree, disk: Disk, fetch: Fetch, svc: Services): Run
    requires cfg.Valid()
  {
    ProcessFiles(cfg, disk, svc, Pending(cfg, tree, fetch), Start)
  }

  /** No entry is stored for a path that was already indexed or that the
      scan did not return; every entry fits its file; ids are numbered in
      increasing order. */
  lemma RunIngestSound(cfg: Config, tree: Tree, disk: Disk, fetch: Fetch, svc: Services)
    requires cfg.Valid()
    ensures var r := RunIngest(cfg, tree, disk, fetch, svc);
      && WellNumbered(r)
      && forall i | 0 <= i < |r.stored| ::
           && r.stored[i].meta.sourcePath !in ExistingPaths(fetch)
           && r.stored[i].meta.sourcePath in ScanFiles(tree, cfg.rootPath, cfg.excludeKeywords, cfg.allowed)
           && EntryFits(cfg, disk, r.stored[i])
  {
    var files := Pending(cfg, tree, fetch);
    var r := RunIngest(cfg, tree, disk, fetch, svc);
    FileLoopGrows(cfg, disk, svc, files, Start);
    assert AddedFits(cfg, disk, files, Start, r);
    forall i | 0 <= i < |r.stored|
      ensures r.stored[i].meta.sourcePath !in ExistingPaths(fetch)
      ensures r.stored[i].meta.sourcePath in ScanFiles(tree, cfg.rootPath, cfg.excludeKeywords, cfg.allowed)
    {
      PendingMember(cfg, tree, fetch, r.stored[i].meta.sourcePath);
    }
  }

  /** A pending file was scanned and is not indexed. */
  lemma PendingMember(cfg: Config, tree: Tree, fetch: Fetch, p: Path)
    requires p in Pending(cfg, tree, fetch)
    ensures p !in ExistingPaths(fetch)
    ensures p in ScanFiles(tree, cfg.rootPath, cfg.excludeKeywords, cfg.allowed)
  {
  }

  // -----------------------------------------------------------------------
  // Properties of the run
  // -----------------------------------------------------------------------

  /** Ids within a run are unique. */
  lemma IdsUnique(run: Run)
    requires WellNumbered(run)
    ensures forall i, j | 0 <= i < j < |run.stored| :: DocId(run.stored[i].number) != DocId(run.stored[j].number)
  {
    forall i, j | 0 <= i < j < |run.stored|
      ensures DocId(run.stored[i].number) != DocId(run.stored[j].number)
    {
      var a := run.stored[i].number;
      var b := run.stored[j].number;
      DecimalDistinct(a, b);
      assert DocId(a)[4..] == Decimal(a);
      assert DocId(b)[4..] == Decimal(b);
    }
  }

  /** Distinct numbers give distinct numerals. */
  lemma DecimalDistinct(a: nat, b: nat)
    ensures a != b ==> Decimal(a) != Decimal(b)
  {
    if Decimal(a) == Decimal(b) {
      DecimalInjective(a, b);
    }
  }

  /** In fast mode every stored text is a prefix of a non-blank chunk of its
      file, at most 1500 characters long. */
  lemma FastModeTexts(cfg: Config, disk: Disk, e: Entry)
    requires cfg.Valid() && cfg.fastMode
    requires EntryFits(cfg, disk, e)
    ensures |e.text| <= 1500
    ensures var chunks := FileChunks(cfg, disk, e.meta.sourcePath);
      exists k | 0 <= k < |chunks| :: Strip(chunks[k]) != "" && e.text <= chunks[k]
  {
    var chunks := FileChunks(cfg, disk, e.meta.sourcePath);
    var k :| 0 <= k < |chunks| && StoredFrom(cfg, chunks[k], e.text);
    FastTextIsPrefix(chunks[k], e.text);
  }

  /** `chunk[:1500]` is a prefix of the chunk of at most 1500 characters. */
  lemma FastTextIsPrefix(chunk: string, text: string)
    requires text == Slice(chunk, 0, 1500)
    ensures |text| <= 1500 && text <= chunk
  {
    TakeIsPrefix(chunk, 1500);
  }

  /** An entry of a document file is tagged "doc" and came from a chunk cut
      with the document size and overlap; any other entry is of a code file,
      tagged "code", and came from a chunk cut with the code size and
      overlap. */
  lemma EntryCategory(cfg: Config, disk: Disk, e: Entry)
    requires cfg.Valid()
    requires EntryFits(cfg, disk, e)
    ensures var path := e.meta.sourcePath;
      var ext := Ext(FileName(path));
      var text := RawText(cfg, disk, path);
      && (ext in cfg.docExts ==>
            && e.meta.fileType == "doc"
            && StoredFromSome(cfg, ChunkText(text, cfg.docSize, cfg.docOverlap), e.text))
      && (ext !in cfg.docExts ==>
            && ext in cfg.codeExts
            && e.meta.fileType == "code"
            && StoredFromSome(cfg, ChunkText(text, cfg.codeSize, cfg.codeOverlap), e.text))
  {
  }

  /** A run that ended on a summariser exception does nothing more. */
  lemma {:induction false} CrashedRunStops(cfg: Config, disk: Disk, svc: Services, files: seq<Path>, st: Run)
    requires cfg.Valid() && st.crashed
    ensures ProcessFiles(cfg, disk, svc, files, st) == st
  {
    if |files| > 0 {
      FileStepGrows(cfg, disk, svc, files[0], st);
      CrashedRunStops(cfg, disk, svc, files[1..], st);
    }
  }

  /** When the metadata cannot be fetched, every scanned file is processed,
      in scan order. */
  lemma FetchFailureReingestsAll(cfg: Config, tree: Tree)
    ensures Pending(cfg, tree, FetchFailed) == ScanFiles(tree, cfg.rootPath, cfg.excludeKeywords, cfg.allowed)
  {
    var scanned := ScanFiles(tree, cfg.rootPath, cfg.excludeKeywords, cfg.allowed);
    ScanAlreadyFiltered(tree, cfg.rootPath, cfg.excludeKeywords, cfg.allowed);
    NewFilesNoneIndexed(scanned, {});
  }

  /** The collection's flat reply after `stored` was added: one metadata
      dict per entry. */
  function EntryItems(stored: seq<Entry>): (items: seq<Item>)
    ensures |items| == |stored|
    ensures forall i | 0 <= i < |stored| :: items[i] == DictItem(Meta(Some(stored[i].meta.sourcePath)))
  {
    if |stored| == 0 then [] else [DictItem(Meta(Some(stored[0].meta.sourcePath)))] + EntryItems(stored[1..])
  }

  /** Incremental runs: when the first run's metadata could be read without
      an exception, a second run over the collection it left behind stores
      nothing for any file the first run stored an entry for, whatever the
      services answer this time. */
  lemma SecondRunSkipsStoredFiles(cfg: Config, tree: Tree, disk: Disk, items: seq<Item>, svc1: Services, svc2: Services)
    requires cfg.Valid()
    requires forall i | 0 <= i < |items| :: !ItemRaises(items[i])
    ensures var run1 := RunIngest(cfg, tree, disk, Fetched(items), svc1);
      var run2 := RunIngest(cfg, tree, disk, Fetched(items + EntryItems(run1.stored)), svc2);
      forall i, j | 0 <= i < |run1.stored| && 0 <= j < |run2.stored| ::
        run1.stored[i].meta.sourcePath != run2.stored[j].meta.sourcePath
  {
    var run1 := RunIngest(cfg, tree, disk, Fetched(items), svc1);
    var after := items + EntryItems(run1.stored);
    RunIngestSound(cfg, tree, disk, Fetched(after), svc2);
    forall i | 0 <= i < |run1.stored|
      ensures run1.stored[i].meta.sourcePath in ExistingPaths(Fetched(after))
    {
      StoredPathIndexed(items, run1.stored, i);
    }
  }

  /** The paths of the earlier reply are still collected after a run's
      entries are appended to it. */
  lemma EarlierPathsStayIndexed(items: seq<Item>, stored: seq<Entry>, p: Path)
    requires forall i | 0 <= i < |items| :: !ItemRaises(items[i])
    requires p in ExistingPaths(Fetched(items))
    ensures p in ExistingPaths(Fetched(items + EntryItems(stored)))
  {
    var after := items + EntryItems(stored);
    forall k | 0 <= k < |after|
      ensures !ItemRaises(after[k])
    {
      if k < |items| {
        assert after[k] == items[k];
      } else {
        assert after[k] == EntryItems(stored)[k - |items|];
      }
    }
    var i :| 0 <= i < |items| && ItemDeclares(items[i], p);
    assert after[i] == items[i];
  }

  /** The path of every appended entry is collected. */
  lemma StoredPathIndexed(items: seq<Item>, stored: seq<Entry>, i: nat)
    requires forall i | 0 <= i < |items| :: !ItemRaises(items[i])
    requires i < |stored|
    ensures stored[i].meta.sourcePath in ExistingPaths(Fetched(items + EntryItems(stored)))
  {
    var after := items + EntryItems(stored);
    forall k | 0 <= k < |after|
      ensures !ItemRaises(after[k])
    {
      if k < |items| {
        assert after[k] == items[k];
      } else {
        assert after[k] == EntryItems(stored)[k - |items|];
      }
    }
    assert ItemDeclares(after[|items| + i], stored[i].meta.sourcePath);
  }

  /** Spelled out: if the first run stored something for every file it had
      to process, the second run over the same tree stores nothing. */
  lemma SecondRunIdempotent(cfg: Config, tree: Tree, disk: Disk, items: seq<Item>, svc1: Services, svc2: Services)
    requires cfg.Valid()
    requires forall i | 0 <= i < |items| :: !ItemRaises(items[i])
    requires var run1 := RunIngest(cfg, tree, disk, Fetched(items), svc1);
      forall f | f in Pending(cfg, tree, Fetched(items)) ::
        exists i | 0 <= i < |run1.stored| :: run1.stored[i].meta.sourcePath == f
    ensures var run1 := RunIngest(cfg, tree, disk, Fetched(items), svc1);
      Pending(cfg, tree, Fetched(items + EntryItems(run1.stored))) == []
    ensures var run1 := RunIngest(cfg, tree, disk, Fetched(items), svc1);
      RunIngest(cfg, tree, disk, Fetched(items + EntryItems(run1.stored)), svc2).stored == []
  {
    var run1 := RunIngest(cfg, tree, disk, Fetched(items), svc1);
    var stored := run1.stored;
    var existing1 := ExistingPaths(Fetched(items));
    var existing2 := ExistingPaths(Fetched(items + EntryItems(stored)));
    var filtered := FilterAllowed(ScanFiles(tree, cfg.rootPath, cfg.excludeKeywords, cfg.allowed), cfg.allowed);
    assert Pending(cfg, tree, Fetched(items)) == NewFiles(filtered, existing1);
    forall k | 0 <= k < |filtered|
      ensures filtered[k] in existing2
    {
      var f := filtered[k];
      if f in existing1 {
        EarlierPathsStayIndexed(items, stored, f);
      } else {
        assert f in NewFiles(filtered, existing1);
        var i :| 0 <= i < |stored| && stored[i].meta.sourcePath == f;
        StoredPathIndexed(items, stored, i);
      }
    }
    NewFilesAllIndexed(filtered, existing2);
    assert Pending(cfg, tree, Fetched(items + EntryItems(stored))) == NewFiles(filtered, existing2);
  }

  /** Ingesting twice: when every file the first run had to process got an
      entry, or is skipped anyway (unrouted, or its text is blank, as for an
      empty or unreadable file), the second run over the collection the
      first one left adds nothing, whatever the services answer. */
  lemma SecondRunAddsNothing(cfg: Config, tree: Tree, disk: Disk, items: seq<Item>, svc1: Services, svc2: Services)
    requires cfg.Valid()
    requires forall i | 0 <= i < |items| :: !ItemRaises(items[i])
    requires var run1 := RunIngest(cfg, tree, disk, Fetched(items), svc1);
      forall f | f in Pending(cfg, tree, Fetched(items)) ::
        || RouteOf(cfg, f).None?
        || Strip(RawText(cfg, disk, f)) == ""
        || exists i | 0 <= i < |run1.stored| :: run1.stored[i].meta.sourcePath == f
    ensures var run1 := RunIngest(cfg, tree, disk, Fetched(items), svc1);
      RunIngest(cfg, tree, disk, Fetched(items + EntryItems(run1.stored)), svc2).stored == []
  {
    var run1 := RunIngest(cfg, tree, disk, Fetched(items), svc1);
    var after := Fetched(items + EntryItems(run1.stored));
    var run2 := RunIngest(cfg, tree, disk, after, svc2);
    if |run2.stored| > 0 {
      RunIngestSound(cfg, tree, disk, after, svc2);
      var f := run2.stored[0].meta.sourcePath;
      assert f !in ExistingPaths(after);
      assert EntryFits(cfg, disk, run2.stored[0]);
      var scanned := ScanFiles(tree, cfg.rootPath, cfg.excludeKeywords, cfg.allowed);
      ScanAlreadyFiltered(tree, cfg.rootPath, cfg.excludeKeywords, cfg.allowed);
      assert f in FilterAllowed(scanned, cfg.allowed);
      if f in ExistingPaths(Fetched(items)) {
        EarlierPathsStayIndexed(items, run1.stored, f);
      } else {
        assert f in Pending(cfg, tree, Fetched(items));
        var i :| 0 <= i < |run1.stored| && run1.stored[i].meta.sourcePath == f;
        StoredPathIndexed(items, run1.stored, i);
      }
      assert false;
    }
  }

  // -----------------------------------------------------------------------
  // Fast mode with services that never fail: the exact result
  // -----------------------------------------------------------------------

  /** The texts fast mode stores for a list of chunks: `chunk[:1500]` for
      each chunk that is not blank, in order. */
  function FastTexts(chunks: seq<string>): seq<string>
  {
    if |chunks| == 0 then [] else FastText(chunks[0]) + FastTexts(chunks[1..])
  }

  /** What fast mode stores for one chunk. */
  function FastText(chunk: string): seq<string>
  {
    if Strip(chunk) == "" then [] else [Slice(chunk, 0, 1500)]
  }

  /** The texts fast mode stores for a list of files. */
  function PlannedTexts(cfg: Config, disk: Disk, files: seq<Path>): seq<string>
    requires cfg.Valid()
  {
    if |files| == 0 then [] else FileFastTexts(cfg, disk, files[0]) + PlannedTexts(cfg, disk, files[1..])
  }

  /** The texts fast mode stores for one file: none for a file that is not
      routed or whose text is blank. */
  function FileFastTexts(cfg: Config, disk: Disk, path: Path): seq<string>
    requires cfg.Valid()
  {
    if RouteOf(cfg, path).None? || Strip(RawText(cfg, disk, path)) == "" then []
    else FastTexts(FileChunks(cfg, disk, path))
  }

  function Texts(stored: seq<Entry>): seq<string>
  {
    seq(|stored|, i requires 0 <= i < |stored| => stored[i].text)
  }

  /** Every embedding and every add succeeds. */
  ghost predicate Reliable(svc: Services)
  {
    && (forall pos, text :: svc.embed(pos, text).Some?)
    && (forall id, text, e, meta :: svc.add(id, text, e, meta))
  }

  /** The entries are numbered 0, 1, 2, ... and the counter is their number:
      no id was used without an entry. */
  predicate Dense(run: Run)
  {
    && !run.crashed
    && run.counter == |run.stored|
    && forall i | 0 <= i < |run.stored| :: run.stored[i].number == i
  }

  lemma {:induction false} ReliableChunks(cfg: Config, svc: Services, path: Path, model: string, tag: string,
                                          chunks: seq<string>, k: nat, st: Run)
    requires cfg.fastMode && Reliable(svc)
    requires k <= |chunks|
    requires Dense(st)
    ensures var r := ProcessChunks(cfg, svc, path, model, tag, chunks, k, st);
      Dense(r) && Texts(r.stored) == Texts(st.stored) + FastTexts(chunks[k..])
    decreases |chunks| - k
  {
    if k < |chunks| {
      var next := StoreChunk(cfg, svc, Position(path, k), model, tag, chunks[k], st);
      var r := ProcessChunks(cfg, svc, path, model, tag, chunks, k + 1, next);
      assert Dense(next) && Texts(next.stored) == Texts(st.stored) + FastText(chunks[k]) by {
        ReliableStep(cfg, svc, Position(path, k), model, tag, chunks[k], st);
      }
      assert Dense(r) && Texts(r.stored) == Texts(next.stored) + FastTexts(chunks[k + 1..]) by {
        ReliableChunks(cfg, svc, path, model, tag, chunks, k + 1, next);
      }
      assert FastTexts(chunks[k..]) == FastText(chunks[k]) + FastTexts(chunks[k + 1..]) by {
        assert chunks[k..][1..] == chunks[k + 1..];
      }
      assert r == ProcessChunks(cfg, svc, path, model, tag, chunks, k, st);
      TextsChain(st, next, r, FastText(chunks[k]), FastTexts(chunks[k + 1..]));
    } else {
      assert chunks[k..] == [];
    }
  }

  /** One chunk in fast mode with reliable services. */
  lemma ReliableStep(cfg: Config, svc: Services, pos: Position, model: string, tag: string, chunk: string, st: Run)
    requires cfg.fastMode && Reliable(svc)
    requires Dense(st)
    ensures var next := StoreChunk(cfg, svc, pos, model, tag, chunk, st);
      Dense(next) && Texts(next.stored) == Texts(st.stored) + FastText(chunk)
  {
    var next := StoreChunk(cfg, svc, pos, model, tag, chunk, st);
    if Strip(chunk) != "" {
      var text := Slice(chunk, 0, 1500);
      assert svc.embed(pos, text).Some?;
      assert next.stored == st.stored + [next.stored[|st.stored|]];
    }
  }

  lemma {:induction false} ReliableFiles(cfg: Config, disk: Disk, svc: Services, files: seq<Path>, st: Run)
    requires cfg.Valid() && cfg.fastMode && Reliable(svc)
    requires Dense(st)
    ensures var r := ProcessFiles(cfg, disk, svc, files, st);
      Dense(r) && Texts(r.stored) == Texts(st.stored) + PlannedTexts(cfg, disk, files)
  {
    if |files| > 0 {
      var next := ProcessFile(cfg, disk, svc, files[0], st);
      ReliableFile(cfg, disk, svc, files[0], st);
      ReliableFiles(cfg, disk, svc, files[1..], next);
      ReliableFilesStep(cfg, disk, svc, files, st, next, ProcessFiles(cfg, disk, svc, files[1..], next));
    }
  }

  /** Composing the first file with the rest of the list. */
  lemma ReliableFilesStep(cfg: Config, disk: Disk, svc: Services, files: seq<Path>, st: Run, next: Run, r: Run)
    requires cfg.Valid() && |files| > 0
    requires next == ProcessFile(cfg, disk, svc, files[0], st)
    requires r == ProcessFiles(cfg, disk, svc, files[1..], next)
    requires Texts(next.stored) == Texts(st.stored) + FileFastTexts(cfg, disk, files[0])
    requires Dense(r) && Texts(r.stored) == Texts(next.stored) + PlannedTexts(cfg, disk, files[1..])
    ensures r == ProcessFiles(cfg, disk, svc, files, st)
    ensures Texts(r.stored) == Texts(st.stored) + PlannedTexts(cfg, disk, files)
  {
    var b, c := FileFastTexts(cfg, disk, files[0]), PlannedTexts(cfg, disk, files[1..]);
    assert PlannedTexts(cfg, disk, files) == b + c;
    TextsChain(st, next, r, b, c);
  }

  /** Texts added in two steps are the two lists of texts in turn. */
  lemma TextsChain(st: Run, next: Run, r: Run, x: seq<string>, y: seq<string>)
    requires Texts(next.stored) == Texts(st.stored) + x
    requires Texts(r.stored) == Texts(next.stored) + y
    ensures Texts(r.stored) == Texts(st.stored) + (x + y)
  {
    assert Texts(st.stored) + x + y == Texts(st.stored) + (x + y);
  }

  lemma ReliableFile(cfg: Config, disk: Disk, svc: Services, path: Path, st: Run)
    requires cfg.Valid() && cfg.fastMode && Reliable(svc)
    requires Dense(st)
    ensures var next := ProcessFile(cfg, disk, svc, path, st);
      Dense(next) && Texts(next.stored) == Texts(st.stored) + FileFastTexts(cfg, disk, path)
  {
    if RouteOf(cfg, path).Some? && Strip(RawText(cfg, disk, path)) != "" {
      var c := RouteOf(cfg, path).value.category;
      var chunks := FileChunks(cfg, disk, path);
      ReliableChunks(cfg, svc, path, ModelFor(cfg, c), Tag(c), chunks, 0, st);
      assert chunks[0..] == chunks;
    }
  }

  /** In fast mode, with an embedding function and a collection that never
      fail, the run stores the first 1500 characters of every non-blank
      chunk of every pending file, in scan and chunk order, the i-th under
      the id doc_i. In particular every run that stores
      anything starts again at doc_0, whatever the collection already
      holds. */
  lemma ReliableFastRun(cfg: Config, tree: Tree, disk: Disk, fetch: Fetch, svc: Services)
    requires cfg.Valid() && cfg.fastMode && Reliable(svc)
    ensures var r := RunIngest(cfg, tree, disk, fetch, svc);
      && Texts(r.stored) == PlannedTexts(cfg, disk, Pending(cfg, tree, fetch))
      && forall i | 0 <= i < |r.stored| :: r.stored[i].number == i
  {
    var files := Pending(cfg, tree, fetch);
    assert RunIngest(cfg, tree, disk, fetch, svc) == ProcessFiles(cfg, disk, svc, files, Start);
    ReliableFromStart(cfg, disk, svc, files);
  }

  lemma ReliableFromStart(cfg: Config, disk: Disk, svc: Services, files: seq<Path>)
    requires cfg.Valid() && cfg.fastMode && Reliable(svc)
    ensures var r := ProcessFiles(cfg, disk, svc, files, Start);
      && Texts(r.stored) == PlannedTexts(cfg, disk, files)
      && forall i | 0 <= i < |r.stored| :: r.stored[i].number == i
  {
    ReliableFiles(cfg, disk, svc, files, Start);
    FromEmpty(Start, ProcessFiles(cfg, disk, svc, files, Start), PlannedTexts(cfg, disk, files));
  }

  /** A dense run continuing the empty run holds exactly the texts added. */
  lemma FromEmpty(st: Run, r: Run, added: seq<string>)
    requires st.stored == []
    requires Dense(r) && Texts(r.stored) == Texts(st.stored) + added
    ensures Texts(r.stored) == added
    ensures forall i | 0 <= i < |r.stored| :: r.stored[i].number == i
  {
    assert Texts(st.stored) == [];
  }
}

=== FILE: pystr.dfy ===
/**
 The Python string operations the ingestion core relies on, stated once:
 slicing with Python's index normalisation, `sep.join(parts)`,
 `str.strip()` and `str.isspace()`, ASCII `str.lower()`, the substring
 test `needle in hay`, and `str(n)` for natural numbers.
 */
module PyStr {

  /** Python's normalisation of one slice bound (step 1) for a sequence of
      length `n`: negative bounds count from the end, then clamp to [0, n]. */
  function SliceIndex(i: int, n: nat): nat
  {
    if i < 0 then (if i + n < 0 then 0 else i + n)
    else if i > n then n
    else i
  }

  /** `s[a:b]` with Python semantics: both bounds normalised, empty when
      the normalised lower bound is not below the upper one. */
  function Slice<T>(s: seq<T>, a: int, b: int): seq<T>
  {
    var lo := SliceIndex(a, |s|);
    var hi := SliceIndex(b, |s|);
    if lo < hi then s[lo..hi] else []
  }

  /** A slice is never longer than the sequence, and in-range bounds select
      exactly the elements between them; a negative bound counts from the
      end, and bounds past either end are clamped. */
  lemma SliceBounds<T>(s: seq<T>, a: int, b: int)
    ensures |Slice(s, a, b)| <= |s|
    ensures 0 <= a <= b <= |s| ==> Slice(s, a, b) == s[a..b]
    ensures 0 <= a <= |s| <= b ==> Slice(s, a, b) == s[a..]
    ensures -|s| <= a < 0 && b >= |s| ==> Slice(s, a, b) == s[|s| + a..]
    ensures 0 <= b <= a ==> Slice(s, a, b) == []
  {
  }

  function Min(a: int, b: int): int { if a <= b then a else b }

  /** For in-range non-negative bounds, a slice is the window between the
      lower bound and the upper bound capped at the length. */
  lemma SliceWindow<T>(s: seq<T>, a: int, b: int)
    requires 0 <= a <= |s| && a <= b
    ensures Slice(s, a, b) == s[a..Min(b, |s|)]
  {
  }

  /** `s[:k]` for k >= 0 is the prefix of length min(k, |s|). */
  lemma TakeIsPrefix<T>(s: seq<T>, k: nat)
    ensures Slice(s, 0, k) == s[..Min(k, |s|)]
    ensures |Slice(s, 0, k)| <= k
    ensures |s| > 0 && k > 0 ==> |Slice(s, 0, k)| > 0
  {
  }

  // ---------------------------------------------------------------------
  // Whitespace: str.isspace() and str.strip()
  // ---------------------------------------------------------------------

  /** The characters Python's `str.isspace()` accepts: the ASCII controls
      HT..CR and FS..US, space, NEL, NBSP, and the Unicode space separators
      and line/paragraph separators. */
  predicate IsSpace(c: char)
  {
    || ('\t' <= c <= '\r')
    || ('\U{1C}' <= c <= '\U{1F}')
    || c == ' '
    || c == '\U{85}'
    || c == '\U{A0}'
    || c == '\U{1680}'
    || ('\U{2000}' <= c <= '\U{200A}')
    || c == '\U{2028}'
    || c == '\U{2029}'
    || c == '\U{202F}'
    || c == '\U{205F}'
    || c == '\U{3000}'
  }

  /** Every character is whitespace (the empty string included). */
  predicate IsBlank(s: string)
  {
    forall i | 0 <= i < |s| :: IsSpace(s[i])
  }

  /** `s.lstrip()`: drops the leading run of whitespace. */
  function StripLeading(s: string): (r: string)
    ensures |r| <= |s| && r == s[|s| - |r|..]
    ensures forall i | 0 <= i < |s| - |r| :: IsSpace(s[i])
    ensures |r| > 0 ==> !IsSpace(r[0])
  {
    if |s| > 0 && IsSpace(s[0]) then StripLeading(s[1..]) else s
  }

  /** `s.rstrip()`: drops the trailing run of whitespace. */
  function StripTrailing(s: string): (r: string)
    ensures |r| <= |s| && r == s[..|r|]
    ensures forall i | |r| <= i < |s| :: IsSpace(s[i])
    ensures |r| > 0 ==> !IsSpace(r[|r| - 1])
  {
    if |s| > 0 && IsSpace(s[|s| - 1]) then StripTrailing(s[..|s| - 1]) else s
  }

  /** `s.strip()`. */
  function Strip(s: string): string
  {
    StripTrailing(StripLeading(s))
  }

  /** `not s.strip()` holds exactly for whitespace-only strings. */
  lemma StripEmptyIffBlank(s: string)
    ensures Strip(s) == "" <==> IsBlank(s)
  {
    var l := StripLeading(s);
    if Strip(s) == "" {
      assert |l| == 0;
    } else {
      var r := Strip(s);
      assert !IsSpace(r[0]);
      assert r[0] == l[0] == s[|s| - |l|];
    }
  }

  // ---------------------------------------------------------------------
  // Case: str.lower() restricted to ASCII letters
  // ---------------------------------------------------------------------

  function LowerChar(c: char): char
  {
    if 'A' <= c <= 'Z' then (c as int + 32) as char else c
  }

  /** `s.lower()` on ASCII letters; other characters are kept. */
  function Lower(s: string): (r: string)
    ensures |r| == |s|
    ensures forall i | 0 <= i < |s| :: r[i] == LowerChar(s[i])
  {
    if |s| == 0 then "" else [LowerChar(s[0])] + Lower(s[1..])
  }

  // ---------------------------------------------------------------------
  // Substring test: `needle in hay`
  // ---------------------------------------------------------------------

  /** `needle` occurs in `hay` starting at index `i`. */
  predicate OccursAt(hay: string, needle: string, i: int)
  {
    0 <= i && i + |needle| <= |hay| && hay[i..i + |needle|] == needle
  }

  predicate Contains(hay: string, needle: string)
  {
    exists i | 0 <= i <= |hay| - |needle| :: OccursAt(hay, needle, i)
  }

  // ---------------------------------------------------------------------
  // sep.join(parts)
  // ---------------------------------------------------------------------

  /** `sep.join(parts)`. */
  function Join(sep: string, parts: seq<string>): string
  {
    if |parts| == 0 then ""
    else if |parts| == 1 then parts[0]
    else parts[0] + sep + Join(sep, parts[1..])
  }

  /** Sum of the lengths of all parts. */
  function TotalLength(parts: seq<string>): nat
  {
    if |parts| == 0 then 0 else |parts[0]| + TotalLength(parts[1..])
  }

  /** The joined string has the parts' total length plus one separator
      between each pair of neighbours. */
  lemma {:induction false} JoinLength(sep: string, parts: seq<string>)
    requires |parts| > 0
    ensures |Join(sep, parts)| == TotalLength(parts) + (|parts| - 1) * |sep|
  {
    if |parts| == 1 {
      assert parts[1..] == [];
    } else {
      JoinLength(sep, parts[1..]);
    }
  }

  /** Appending a part appends a separator and the part: together with
      `Join(sep, [x]) == x` this determines `Join` on every list, in the
      order the parts are given. */
  lemma {:induction false} JoinSnoc(sep: string, parts: seq<string>, x: string)
    requires |parts| > 0
    ensures Join(sep, parts + [x]) == Join(sep, parts) + sep + x
  {
    if |parts| == 1 {
      assert (parts + [x])[1..] == [x];
    } else {
      assert (parts + [x])[1..] == parts[1..] + [x];
      JoinSnoc(sep, parts[1..], x);
    }
  }

  // ---------------------------------------------------------------------
  // str(n) for natural numbers
  // ---------------------------------------------------------------------

  function DigitChar(d: nat): char
    requires d < 10
  {
    "0123456789"[d]
  }

  /** `str(n)`: the decimal numeral of `n`, most significant digit first. */
  function Decimal(n: nat): (r: string)
    ensures |r| >= 1
    ensures n < 10 <==> |r| == 1
    ensures forall i | 0 <= i < |r| :: '0' <= r[i] <= '9'
  {
    if n < 10 then [DigitChar(n)] else Decimal(n / 10) + [DigitChar(n % 10)]
  }

  /** The value of a decimal digit. */
  function DigitValue(c: char): nat
    requires '0' <= c <= '9'
  {
    (c as int) - ('0' as int)
  }

  predicate AllDigits(s: string)
  {
    forall i | 0 <= i < |s| :: '0' <= s[i] <= '9'
  }

  /** The number a string of decimal digits denotes, most significant digit
      first (`int(s)` for such a string). */
  function Value(s: string): nat
    requires AllDigits(s)
    decreases |s|
  {
    if |s| == 0 then 0 else Value(s[..|s| - 1]) * 10 + DigitValue(s[|s| - 1])
  }

  lemma DigitValueOf(d: nat)
    requires d < 10
    ensures DigitValue(DigitChar(d)) == d
  {
  }

  /** `str(n)` is the numeral of `n`: read back most significant digit
      first it denotes `n`, and it has no leading zero (it is "0" only for
      0). */
  lemma {:induction false} DecimalValue(n: nat)
    ensures AllDigits(Decimal(n))
    ensures Value(Decimal(n)) == n
    ensures Decimal(n)[0] == '0' <==> n == 0
    decreases n
  {
    var s := Decimal(n);
    DigitValueOf(n % 10);
    if n >= 10 {
      DecimalValue(n / 10);
      assert s[..|s| - 1] == Decimal(n / 10);
      assert s[0] == Decimal(n / 10)[0];
    }
  }

  lemma DigitCharInjective(a: nat, b: nat)
    requires a < 10 && b < 10 && DigitChar(a) == DigitChar(b)
    ensures a == b
  {
  }

  /** Distinct numbers have distinct numerals. */
  lemma {:induction false} DecimalInjective(a: nat, b: nat)
    requires Decimal(a) == Decimal(b)
    ensures a == b
    decreases a
  {
    var s := Decimal(a);
    if a < 10 {
      DigitCharInjective(a, b);
    } else {
      assert b >= 10;
      assert s[|s| - 1] == DigitChar(a % 10) == DigitChar(b % 10);
      DigitCharInjective(a % 10, b % 10);
      assert Decimal(a / 10) == s[..|s| - 1] == Decimal(b / 10);
      DecimalInjective(a / 10, b / 10);
    }
  }
}

=== FILE: wrappers.dfy ===
/**
 The optional value shared by the modules: a Python value that may be
 None, a lookup that may find nothing, or a step that may fail.
 */
module Wrappers {

  datatype Option<+T> = None | Some(value: T)
}
